=== FILE: README.md ===
# Brand-asset scripts, modelled in Dafny

The repository keeps four Node scripts that build a personal site's images:

- `scripts/optimize-images.js` walks the public directory, keeps the PNG and JPEG files,
  skips the `.min` copies an earlier run produced, and asks an encoder for a WebP copy and a
  compressed copy of every other file. A failure on one file is logged and the batch goes on.
- `scripts/generate-brand-assets.js` draws the logo on a 2D canvas at 500, 180 and 32 pixels.
  The logo is a cream square, a flat-topped hexagon filled brick and outlined orange, and the
  initials "VS" centred as one unit.
- `scripts/generate-brand-assets-sharp.js` writes the same logo as an SVG document.
- `scripts/generate-og.js` draws the 1200 by 630 Open Graph banner. It has a vertical gradient,
  a faint overlay of sine waves and a circuit, a title with a shadow, and a subtitle.

The model has seven modules:

- `Paths` (paths.dfy) holds Node's POSIX `path.join`, `dirname`, `basename` and `extname`,
  and ASCII `toLowerCase`.
- `Optimizer` (optimizer.dfy) models the optimizer.
  - The directory is a tree of entries. `walk` is a method that pushes into a list object.
  - Every encoder call is a `Job`. The `succeeds` oracle says which calls complete; the rest throw.
  - A run is the sequence of files written and log outcomes.
- `Float64` (float64.dfy) holds positive binary64 doubles, decimal literals, rounded
  multiplication and `Math.floor`. It shows that the integer sizing formulas give what
  JavaScript computes at the rendered sizes.
- `LogoSizing` (sizing.dfy) holds the sizing formulas shared by both logo scripts.
- `Canvas` (canvas.dfy) is a recording 2D context. It keeps the drawing state, the
  `save`/`restore` stack (WHATWG HTML Living Standard, section 4.12.5.1), the current path and a
  log of drawing operations, each logged with the state it was drawn under. Gradients are
  objects whose stops are inserted in offset order.
- `BrandLogo` (brand_logo.dfy) draws the canvas logo step by step. Each drawing phase is proved
  to leave the log its specification function gives.
- `LogoSvg` (svg_logo.dfy) gives the SVG document as its element tree, including the
  `points` list of SVG 1.1 section 9.8.1.
- `OgImage` (og_image.dfy) draws the banner with the source's loops and the `save`/`restore`
  pair. It is proved against its draw log.

Trigonometry, `measureText` and `toFixed(2)` are parameters of the model: a `Trig` value
holding `Math.PI`, `Math.cos` and `Math.sin`, a measuring function, and a formatting function.

## Model

| member | source | states |
|---|---|---|
| Paths.Component | scripts/optimize-images.js:15 | the last segment is the longest separator-free suffix of the path |
| Paths.DirName | scripts/optimize-images.js:14 | the directory is "." without a separator, else the path is the directory, "/" and the last segment (or the directory is the root) |
| Paths.SegmentExt | scripts/optimize-images.js:13 | `extname` is empty or starts with the segment's last dot, is a proper suffix and holds no other dot |
| Paths.SegmentExtOf | scripts/optimize-images.js:13 | a non-empty stem followed by a one-dot extension has that extension, whatever dots the stem holds |
| Paths.StripSuffix | scripts/optimize-images.js:15 | `basename(p, ext)` removes `ext` only when the name ends with it exactly (case-sensitively) and something remains |
| Paths.ExtName | scripts/optimize-images.js:13 | `path.extname` is the extension of the last segment; SegmentExt and SegmentExtOf state which suffix that is |
| Paths.BaseName | scripts/optimize-images.js:15 | `path.basename(p, ext)` is the last segment with `ext` removed by the rule StripSuffix states, and "" when `ext` is the whole path |
| Paths.JoinParts | scripts/optimize-images.js:46 | `path.join(dir, name)` gives a file path whose last segment is the name and whose directory is `dir` |
| Paths.Join | scripts/optimize-images.js:17 | `path.join(dir, name)` for a normalized directory and a plain name; JoinParts and SplitJoin state that it splits back into the two parts |
| Paths.SplitJoin | scripts/optimize-images.js:14-17 | joining a file path's directory and last segment gives the path back |
| Paths.LowerAt | scripts/optimize-images.js:13 | lower-casing maps each character on its own and keeps the length |
| Paths.Lower | scripts/optimize-images.js:13 | `toLowerCase` keeps the length; LowerAt and LowerEq state its effect character by character |
| Paths.LowerEq | scripts/optimize-images.js:13 | a string is the lower-casing of another when it agrees character by character |
| Optimizer.FileList.Push | scripts/optimize-images.js:48 | `list.push(full)` appends one path |
| Optimizer.Flatten | scripts/optimize-images.js:43-51 | the files of a directory tree in listing order, directories expanded in place; Walk is proved to produce it, and FlattenExactlyOnce, FlattenBelow and FlattenConcat state its properties |
| Optimizer.Walk | scripts/optimize-images.js:43-51 | the accumulator `walk` appends exactly the recursive flattening of the tree to the list |
| Optimizer.WalkFrom | scripts/optimize-images.js:59 | `walk(PUBLIC_DIR)` with a fresh list returns the flattening |
| Optimizer.FlattenConcat | scripts/optimize-images.js:45-48 | listing order is kept: the files of a split listing are the first part's followed by the second's |
| Optimizer.FlattenExactlyOnce | scripts/optimize-images.js:43-51 | one path per non-directory entry, and no path twice when names within a directory are distinct |
| Optimizer.FlattenBelow | scripts/optimize-images.js:43-51 | every returned file lies below the entry of the listing it came from |
| Optimizer.EarlierNotBelowLast | scripts/optimize-images.js:45-48 | files of earlier entries never lie below a later sibling |
| Optimizer.FlattenFilePaths | scripts/optimize-images.js:43-51 | every path `walk` returns below a normalized directory is a well-formed file path |
| Optimizer.SupportedInput | scripts/optimize-images.js:10 | `SUPPORTED_INPUTS` holds ".png", ".jpg" and ".jpeg"; IsTarget tests the lower-cased extension against it |
| Optimizer.IsTarget | scripts/optimize-images.js:60 | the lower-cased `extname` is ".png", ".jpg" or ".jpeg"; TargetByExtension states the same without `extname` |
| Optimizer.TargetByExtension | scripts/optimize-images.js:10 | a file is a target exactly when its name ends, in any letter case, in ".png", ".jpg" or ".jpeg" after another character |
| Optimizer.Targets | scripts/optimize-images.js:60 | the filter keeps every target among the files and nothing else, and a duplicate-free list stays duplicate-free |
| Optimizer.TargetsConcat | scripts/optimize-images.js:60 | the filter keeps walk order and multiplicity: filtering `a + b` is filtering `a`, then `b` |
| Optimizer.TargetsOne | scripts/optimize-images.js:60 | one file passes exactly when it is a target; with TargetsConcat this fixes the filtered sequence |
| Optimizer.Selected | scripts/optimize-images.js:59-60 | the selected targets are exactly the walked files that pass the filter, and no file is selected twice when each directory's names are distinct |
| Optimizer.IsMinified | scripts/optimize-images.js:69 | the path ends in ".min.png" or ".min.jpg", compared case-sensitively; MinMarkerIsCaseSensitive and MinCopySkipped state its consequences |
| Optimizer.Stem | scripts/optimize-images.js:15 | `base` is the name with the lower-cased extension removed; StemShape shows it is never empty and holds no separator, ExactCaseStem and UpperExtensionKept show when the extension is stripped |
| Optimizer.Beside | scripts/optimize-images.js:17 | an output path is a file path in the input's directory named `base` plus the suffix |
| Optimizer.MinJob | scripts/optimize-images.js:26-35 | a format-preserving copy exists exactly for a target |
| Optimizer.WebpJob | scripts/optimize-images.js:17-23 | the WebP call at quality 82 into `dir/base.webp`; Beside and TargetOutputs state where it writes |
| Optimizer.Jobs | scripts/optimize-images.js:19-35 | the encoder calls of `optimizeImage` in order: the WebP copy, then the format-preserving copy for a target; TargetOutputs states their formats and names |
| Optimizer.TargetOutputs | scripts/optimize-images.js:17-35 | a target gets a WebP(82) copy and then exactly one copy: Png(9) "base.min.png" for PNG, Jpeg(82, mozjpeg) "base.min.jpg" for JPEG, both beside it |
| Optimizer.SharedWebpOutput | scripts/optimize-images.js:17 | "a.png" and "a.jpg" in one directory both write "a.webp" |
| Optimizer.ExactCaseStem | scripts/optimize-images.js:15 | with a lower-case extension, `base` is the name without it |
| Optimizer.UpperExtensionKept | scripts/optimize-images.js:13-15 | "n.PNG" is a target, but `base` keeps ".PNG": it writes "n.PNG.webp" and "n.PNG.min.png" |
| Optimizer.MinMarkerIsCaseSensitive | scripts/optimize-images.js:69 | "n.MIN.PNG" is a target and is not skipped |
| Optimizer.MinCopySkipped | scripts/optimize-images.js:69 | a "base.min.png" or "base.min.jpg" file is a target that the loop skips |
| Optimizer.OutputsNotReprocessed | scripts/optimize-images.js:23-35 | a run's outputs are not optimized by the next run: the WebP copy is no target and the other copy is skipped |
| Optimizer.Completed | scripts/optimize-images.js:19-36 | the calls that complete are the longest prefix of calls that succeed; the next one fails |
| Optimizer.Attempt | scripts/optimize-images.js:19-40 | one attempt writes exactly the completed calls and logs one outcome: success when all completed, else the caught failure |
| Optimizer.AttemptWrites | scripts/optimize-images.js:19-40 | every file one attempt writes is an output of that file whose call succeeded |
| Optimizer.AttemptSucceeds | scripts/optimize-images.js:19-40 | an attempt writes only its own jobs, and logs success exactly when every job completes, that is exactly when every job is written |
| Optimizer.OptimizeImage | scripts/optimize-images.js:12-41 | one log line naming the file; only that file's outputs whose calls succeeded are written; "Optimized" exactly when every encoder call succeeds, that is exactly when both outputs are written |
| Optimizer.Processed | scripts/optimize-images.js:67-71 | the files handed to `optimizeImage` are exactly the targets that are not skipped, and a duplicate-free target list gives a duplicate-free one |
| Optimizer.ProcessedConcat | scripts/optimize-images.js:67-71 | the skip keeps target order and multiplicity: skipping over `a + b` is skipping over `a`, then `b` |
| Optimizer.ProcessedOne | scripts/optimize-images.js:69-70 | one target is handed on exactly when it is not a minified copy |
| Optimizer.Batch | scripts/optimize-images.js:67-71 | the loop's events: skipped targets add nothing, every other target adds its attempt, in order; OptimizeAll is proved to produce it, and BatchOutcomes and BatchWrites state its properties |
| Optimizer.BatchOutcomes | scripts/optimize-images.js:67-71 | whichever calls fail, each non-skipped target gets exactly one outcome, in target order |
| Optimizer.BatchWrites | scripts/optimize-images.js:67-71 | only completed calls write files, and only for processed targets |
| Optimizer.VisitedOnce | scripts/optimize-images.js:59-71 | with distinct names per directory, a run logs one outcome for each walked target that is not a minified copy, for nothing else, and for no file twice |
| Optimizer.OptimizeAll | scripts/optimize-images.js:67-71 | the `for` loop with `continue` produces the batch's events |
| Optimizer.RunOptimizer | scripts/optimize-images.js:53-74 | a missing directory ends the run; an empty target list does nothing; otherwise the batch runs |
| Float64.Pow2Add | scripts/generate-brand-assets.js:48 | powers of two add their exponents |
| Float64.RoundShift | scripts/generate-brand-assets.js:48 | shifting a significand product rounds to nearest, ties to even, onto the floor or ceiling of the quotient |
| Float64.RoundShiftIs | scripts/generate-brand-assets.js:48 | without a tie, the rounded value is the only integer within half a unit |
| Float64.Carry | scripts/generate-brand-assets.js:48 | a significand rounded up to 2^53 carries into the next binade; the result is normal and has the same value |
| Float64.ShiftBounds | scripts/generate-brand-assets.js:48 | the rounded 53-bit significand of a product lies in [2^52, 2^53] |
| Float64.Mul | scripts/generate-brand-assets.js:48 | `size * 0.33` as a double is normal again |
| Float64.MulIs | scripts/generate-brand-assets.js:48 | the product is `q * 2^(ea + eb + s)` when `q` is strictly nearest the shifted exact product |
| Float64.FromNat | scripts/generate-brand-assets.js:48 | an integer below 2^53 is an exact double |
| Float64.FromNatIs | scripts/generate-brand-assets.js:48 | one shift alone brings an integer into the 53-bit range |
| Float64.Floor | scripts/generate-brand-assets.js:48 | `Math.floor` gives the integer `k` with `k <= d < k + 1` |
| Float64.FloorIs | scripts/generate-brand-assets.js:48 | `k` is the floor of a double in [k, k + 1) |
| Float64.FloorTimes | scripts/generate-brand-assets.js:48 | `Math.floor(size * c)`: the integer `k` with `k <= (size * c rounded to a double) < k + 1` |
| LogoSizing.HexRadius | scripts/generate-brand-assets.js:48 | the radius is the exact product `size * 0.33` rounded down; FormulasAgree ties this to the double computation |
| LogoSizing.StrokeWidth | scripts/generate-brand-assets.js:56 | the width is the exact `size * 0.018` rounded down, or 2 when that is below 2 |
| LogoSizing.FontSize | scripts/generate-brand-assets.js:65 | the font size is the exact `size * 0.28` rounded down |
| LogoSizing.TextDrop | scripts/generate-brand-assets.js:74 | the text drop is the exact `size * 0.01` rounded down |
| LogoSizing.StrokeWidthBounds | scripts/generate-brand-assets.js:56 | the stroke width is at least 2 and never decreases as the size grows |
| LogoSizing.RadiusFits | scripts/generate-brand-assets.js:48 | the hexagon's radius is at most half the canvas size |
| LogoSizing.FontWithinRadius | scripts/generate-brand-assets.js:65 | the font size is never larger than the radius |
| LogoSizing.Literals | scripts/generate-brand-assets.js:48-74 | 0.33, 0.018, 0.28 and 0.01 are read as the nearest doubles used here |
| LogoSizing.SizingAtLogoSizes | scripts/generate-brand-assets.js:94-96 | at 500, 180 and 32 the (radius, stroke, font) are (165, 9, 140), (59, 3, 50), (10, 2, 8), and the drops are 5, 1, 0 |
| LogoSizing.FormulasAgree | scripts/generate-brand-assets.js:94-96 | at every rendered size the integer formulas equal `Math.floor` of the double products |
| LogoSizing.RoundingLiftsStroke | scripts/generate-brand-assets.js:56 | at 500 the exact product is below 9, but the rounded double product floors to 9 |
| LogoSizing.StrokeDiffersAt1500 | scripts/generate-brand-assets.js:56 | at 1500, which the scripts do not render, `Math.floor` of the double product is 26 while the integer formula gives 27 |
| Canvas.InitialDefaults | scripts/generate-og.js:112-113 | a new context's drawing state has alpha 1, no shadow, black fill and stroke, line width 1, 10px sans-serif, start alignment and the alphabetic baseline |
| Canvas.Context2D.constructor | scripts/generate-brand-assets.js:38-39 | `createCanvas(w, h).getContext('2d')`: the given size, the initial drawing state, an empty state stack, an empty path and an empty log |
| Canvas.LinearGradient.constructor | scripts/generate-og.js:20 | `createLinearGradient(x0, y0, x1, y1)` keeps the gradient line and starts with no stops |
| Canvas.InsertStop | scripts/generate-og.js:21-23 | adding a stop lengthens the list by one |
| Canvas.InsertStopSorted | scripts/generate-og.js:21-23 | adding a stop keeps the stops sorted and adds exactly that stop |
| Canvas.InsertStopAt | scripts/generate-og.js:21-23 | the new stop goes after every stop of equal or smaller offset and before the first larger one; the others keep their order |
| Canvas.InsertStopSplit | scripts/generate-og.js:21-23 | insertion splices the stop in at its index |
| Canvas.LinearGradient.AddColorStop | scripts/generate-og.js:21-23 | an offset in [0, 1] inserts the stop in order; others add nothing and report the error |
| Canvas.LinearGradient.AsPaint | scripts/generate-og.js:24 | the gradient as a fill holds its stops |
| Canvas.Context2D.SetLineWidth | scripts/generate-og.js:71 | a positive width is set; others are ignored |
| Canvas.Context2D.SetGlobalAlpha | scripts/generate-og.js:57 | an alpha in [0, 1] is set; others are ignored |
| Canvas.Context2D.SetShadowBlur | scripts/generate-og.js:36 | a non-negative blur is set; others are ignored |
| Canvas.Context2D.SetShadowColor | scripts/generate-og.js:35 | only the shadow colour changes |
| Canvas.Context2D.SetShadowOffsetY | scripts/generate-og.js:37 | only the vertical shadow offset changes |
| Canvas.Context2D.SetFillStyle | scripts/generate-og.js:24 | only the fill style changes |
| Canvas.Context2D.SetStrokeStyle | scripts/generate-og.js:58 | only the stroke style changes |
| Canvas.Context2D.SetFont | scripts/generate-og.js:30 | only the font changes |
| Canvas.Context2D.SetTextAlign | scripts/generate-og.js:31 | only the alignment changes |
| Canvas.Context2D.SetTextBaseline | scripts/generate-og.js:32 | only the baseline changes |
| Canvas.Context2D.Save | scripts/generate-og.js:56 | `save` pushes the drawing state and changes nothing else |
| Canvas.Context2D.Restore | scripts/generate-og.js:108 | `restore` pops the saved state back; on an empty stack it does nothing |
| Canvas.Context2D.BeginPath | scripts/generate-og.js:62 | the current path is emptied |
| Canvas.Context2D.MoveTo | scripts/generate-og.js:66 | one move is appended to the path |
| Canvas.Context2D.LineTo | scripts/generate-og.js:69 | one line is appended to the path |
| Canvas.Context2D.Arc | scripts/generate-og.js:105 | `ctx.arc(...)` appends one arc to the path and changes nothing else |
| Canvas.Context2D.ClosePath | scripts/generate-brand-assets.js:34 | one close is appended to the path |
| Canvas.Context2D.FillRect | scripts/generate-og.js:25 | one rectangle fill is logged under the current state |
| Canvas.Context2D.Fill | scripts/generate-og.js:106 | the current path's fill is logged under the current state; the path stays |
| Canvas.Context2D.Stroke | scripts/generate-og.js:72 | the current path's stroke is logged under the current state; the path stays |
| Canvas.Context2D.FillText | scripts/generate-og.js:38 | one text is logged at its position under the current state |
| Canvas.Context2D.MeasureText | scripts/generate-brand-assets.js:72 | the width is the font engine's width of the text in the current font |
| Canvas.LeftEdge | scripts/generate-brand-assets.js:62 | the left edge of a text for each `textAlign` in a left-to-right context, "center" putting the anchor at the middle; LettersCentred rests on it |
| BrandLogo.HexagonPath | scripts/generate-brand-assets.js:25-34 | the path `drawHexagon` leaves: the six-vertex prefix, then a close; HexagonShape and DrawHexagon state its commands |
| BrandLogo.HexPrefixAt | scripts/generate-brand-assets.js:27-33 | after the loop's first turns, command 0 is a move and later ones are lines, each to vertex `k` |
| BrandLogo.HexagonShape | scripts/generate-brand-assets.js:26-34 | the hexagon is one move, exactly five lines and a close; vertex `i` is at radius `r`, angle `pi/3*i - pi/6` |
| BrandLogo.DrawHexagon | scripts/generate-brand-assets.js:25-35 | the loop leaves the hexagon as the current path and changes nothing else |
| BrandLogo.DrawHexLayers | scripts/generate-brand-assets.js:46-58 | the hexagon is filled brick and then stroked orange at the stroke width |
| BrandLogo.DrawInitials | scripts/generate-brand-assets.js:60-75 | the text state is set and "V" and "S" are drawn at the measured positions |
| BrandLogo.RenderLogo | scripts/generate-brand-assets.js:37-78 | `renderLogo(size)` leaves the logo's draw log on a fresh size by size context; the sizing is JavaScript's only at the rendered sizes (see LogoSizing.FormulasAgree under Left out) |
| BrandLogo.LogoOps | scripts/generate-brand-assets.js:41-75 | the draw log of `renderLogo`: the background, the hexagon layers, the initials; RenderLogo is proved to produce it, and LogoLayers, LogoPlain and LettersCentred state its properties |
| BrandLogo.LogoLayers | scripts/generate-brand-assets.js:42-75 | draw order: cream background over the canvas, brick fill, orange stroke, then "V" and "S" in cream, bold, centred, middle |
| BrandLogo.LogoPlain | scripts/generate-brand-assets.js:42-75 | every layer is opaque and shadowless |
| BrandLogo.LettersCentred | scripts/generate-brand-assets.js:71-75 | V's left edge plus S's right edge is `2*cx`, and the gap is `0.02*size`, for any glyph widths |
| BrandLogo.LettersSameY | scripts/generate-brand-assets.js:74-75 | both letters are at `cy + floor(0.01*size)` |
| BrandLogo.HexagonFits | scripts/generate-brand-assets.js:46-48 | the hexagon is centred at `(size/2, size/2)` with radius `floor(0.33*size)` at most `size/2`, and the font is no larger |
| BrandLogo.GenerateLogos | scripts/generate-brand-assets.js:94-96 | the logo is rendered at 500, 180 and 32 |
| LogoSvg.NatToString | scripts/generate-brand-assets-sharp.js:33 | `${n}` is non-empty decimal digits without a leading zero |
| LogoSvg.ParseNatToString | scripts/generate-brand-assets-sharp.js:33 | the decimal text of `n` reads back as `n` |
| LogoSvg.SplitJoin | scripts/generate-brand-assets-sharp.js:30 | splitting a `join(' ')` on the separator gives the parts back |
| LogoSvg.PointsShape | scripts/generate-brand-assets-sharp.js:25-30 | `points` holds exactly six space-separated pairs; pair `i` is the two coordinates of vertex `i`, split by one comma |
| LogoSvg.Points | scripts/generate-brand-assets-sharp.js:25-30 | the six formatted vertex pairs joined by spaces; PointsShape states that it splits back into them |
| LogoSvg.SvgLogo | scripts/generate-brand-assets-sharp.js:20-40 | the element tree of the SVG template; TreeShape, TextGroup and SvgNumbers state its shape and numbers |
| LogoSvg.TreeShape | scripts/generate-brand-assets-sharp.js:33-38 | the root's width, height and viewBox use one size; the children are the cream rect, then the polygon (brick, orange, stroke width), then the text group |
| LogoSvg.TextGroup | scripts/generate-brand-assets-sharp.js:36-37 | the group is bold at the font size, cream and middle-anchored, holding one text "VS" at 50%, 51% |
| LogoSvg.SvgNumbers | scripts/generate-brand-assets-sharp.js:21-23 | the numbers in the document read back as the size, StrokeWidth(size) and FontSize(size), the integer formulas that equal the script's double computation at the rendered sizes |
| OgImage.GradientStops | scripts/generate-og.js:20-23 | the gradient runs from top to bottom edge with ascending stops 0, 0.5, 1: cream, orange, brick |
| OgImage.DrawGradient | scripts/generate-og.js:18-26 | the gradient built stop by stop is the banner gradient, and it fills the whole canvas |
| OgImage.DrawTitle | scripts/generate-og.js:28-43 | the title is drawn with the shadow, which is reset afterwards |
| OgImage.DrawSubtitle | scripts/generate-og.js:45-52 | the subtitle is drawn cream, 40px, left and top at (80, 280) |
| OgImage.WavePointsAt | scripts/generate-og.js:67-69 | loop turn `x` appends the line to column `x` at the wave's height |
| OgImage.WavePath | scripts/generate-og.js:64-82 | the path of wave `i`: a move to the left edge, then one point per column; WaveShape, WavePointsAt and WaveInside state its points |
| OgImage.WaveShape | scripts/generate-og.js:66-81 | each wave path is a move to `(0, 450 + 28*i)` then exactly 1201 lines at x = 0..1200 |
| OgImage.WaveInside | scripts/generate-og.js:63-80 | wavelengths 160, 145, 130 and amplitudes 22, 16, 10 stay positive, and each wave lies on the canvas |
| OgImage.TraceWave | scripts/generate-og.js:62-69 | the inner loop leaves the wave as the current path and changes nothing else |
| OgImage.WaveOpsAt | scripts/generate-og.js:71-84 | wave `k` is stroked along its own path, at width 3 for the first and 2 for the others |
| OgImage.DrawWaves | scripts/generate-og.js:61-85 | the three waves are stroked in order |
| OgImage.BranchGeometry | scripts/generate-og.js:88-105 | branches sit at y 200, 280, 360, 420 on the bus from 140 to 440, end at `1060 - 30*idx` (decreasing, right of the bus, below 1200), and each radius-6 node is on the canvas |
| OgImage.BranchesOpsAt | scripts/generate-og.js:98-107 | branch `idx` is stroked and its end node filled, at positions `2*idx` and `2*idx + 1` |
| OgImage.DrawBranch | scripts/generate-og.js:98-106 | one callback strokes the branch and fills a radius-6 circle at its end |
| OgImage.DrawCircuit | scripts/generate-og.js:88-107 | the bus and then the four branches are drawn at width 2 |
| OgImage.DrawTechOverlay | scripts/generate-og.js:54-109 | after `restore` the drawing state and stack are what they were before the overlay; the overlay's operations are logged |
| OgImage.OverlayStates | scripts/generate-og.js:56-59 | all twelve overlay operations are drawn at alpha 0.18 in dark brown, otherwise under the entry state |
| OgImage.OverlayOps | scripts/generate-og.js:54-109 | the overlay's draw log: the three waves, then the circuit at line width 2; DrawTechOverlay is proved to produce it and OverlayStates states its paint |
| OgImage.Generate | scripts/generate-og.js:111-123 | the banner's draw log on a fresh 1200 by 630 context |
| OgImage.BannerOps | scripts/generate-og.js:111-123 | the draw log of `generate`: gradient fill, overlay, title, subtitle; Generate is proved to produce it, and BannerLayers and TextLayout state its properties |
| OgImage.BannerLayers | scripts/generate-og.js:116-123 | layer order: the gradient fill over the canvas, twelve overlay operations at 0.18, then the title and subtitle fully opaque |
| OgImage.TextLayout | scripts/generate-og.js:35-51 | only the title has a shadow; both texts start at x 80 with a top baseline, and the title's 90px line ends before the subtitle's y 280 |

## Left out

- Encoding and raster output (`sharp`, `png-to-ico`, node-canvas PNG streams) are left out: they are foreign libraries. Each encoder call is a `Job` whose outcome comes from the `succeeds` parameter.
- Console logging, `path.relative`, `process.exit`, `fs.existsSync`, `mkdirSync`, `readdirSync`, `writeFileSync`, the temporary `favicon-32.png`, and Promise sequencing are left out; the directory listing is a parameter.
- The `.ico` conversion and the output file names of both logo scripts are not part of this model.
- `scripts/generate-og-sharp.js` is not part of this model: it hands a fixed SVG literal to `sharp`.
- Symbolic links: `isDirectory()` is false for them, so they are leaves, and the model does not follow them.
- Paths.Join: models `path.join` only for a normalized absolute directory and a plain entry name, the only arguments the optimizer passes it.
- Paths.Lower: lower-cases ASCII letters only; other Unicode case mappings are not modelled.
- Sines, cosines and `Math.PI` are uninterpreted values of the `Trig` parameter. Coordinates are exact reals rather than doubles: hexagon vertices, the letter spacing `size * 0.02`, and wave heights.
- OgImage.WaveInside: takes `-1 <= sin <= 1` as a precondition on the `Trig` parameter, because the sine is not modelled.
- `toFixed(2)` and `measureText` are parameters. The SVG `points` text is only assumed to hold digits, signs and dots.
- LogoSvg.SvgLogo: the document is its element tree. The whitespace, the XML declaration and the character-level serialization of the template are not modelled.
- CSS font strings and colour strings are kept as written; font parsing and colour parsing are left out.
- Pixels are not modelled: the canvas records operations and does not rasterize them.
- Canvas.Paint: a gradient assigned to `fillStyle` is captured by value. Stops added after the assignment are not seen (the script adds none).
- Canvas.LinearGradient.AddColorStop: the `IndexSizeError` for an offset outside [0, 1] is returned as `ok = false` instead of thrown. Colour-parse errors are not modelled.
- Float64.Mul: its contract states only that the product is normal. Rounding to nearest, ties to even, is stated by `RoundShift`, which `Mul` uses, and the products used are pinned down by `MulIs`. Exponent overflow and subnormals are left out.
- LogoSizing.FormulasAgree: the integer formulas are shown equal to the double computation only at the rendered sizes 500, 180 and 32. They are not JavaScript's at every size: at 1500 (also at 3000 and 3500) `Math.floor(size * 0.018)` is one less than StrokeWidth, which StrokeDiffersAt1500 proves at 1500. So BrandLogo.RenderLogo and LogoSvg.SvgLogo at other sizes give the integer-formula logo, not necessarily the scripts': at 1500 the SVG's `stroke-width` would read 27 where the script writes 26.
- OgImage.TraceWave: traces the main wave with the parallel waves' formula at `i = 0`. For that `i` this gives the same coordinates as the script's separate first loop.

=== FILE: brand_logo.dfy ===
/** The logo scene that the canvas brand-asset script draws: a cream square, a flat-topped
    hexagon filled brick and outlined orange, and the initials "VS" in cream, laid out as one
    centred unit. `RenderLogo` issues the draw calls on a recording context; `LogoOps` is the
    log it produces, and the lemmas state what that log shows. */
module BrandLogo {
  import opened Canvas
  import opened LogoSizing

  const Cream := "#F5E9E4"
  const Orange := "#FFA046"
  const Brick := "#D4451D"
  const LogoFamily := "Arial, Helvetica, sans-serif"

  /** The angle of vertex `i`: a sixth of a turn per vertex, starting a twelfth of a turn
      before 0, which puts two edges flat at the top and bottom. */
  function HexAngle(t: Trig, i: nat): real {
    t.pi / 3.0 * i as real - t.pi / 6.0
  }

  function VertexX(t: Trig, cx: real, r: real, i: nat): real {
    cx + r * t.cos(HexAngle(t, i))
  }

  function VertexY(t: Trig, cy: real, r: real, i: nat): real {
    cy + r * t.sin(HexAngle(t, i))
  }

  /** The path after the first `n` turns of `drawHexagon`'s loop. */
  function HexPrefix(t: Trig, cx: real, cy: real, r: real, n: nat): (p: seq<PathCmd>)
    ensures |p| == n
  {
    if n == 0 then []
    else
      var i := n - 1;
      var x := VertexX(t, cx, r, i);
      var y := VertexY(t, cy, r, i);
      HexPrefix(t, cx, cy, r, i) + [if i == 0 then PathCmd.MoveTo(x, y) else PathCmd.LineTo(x, y)]
  }

  /** The path `drawHexagon` leaves current. */
  function HexagonPath(t: Trig, cx: real, cy: real, r: real): seq<PathCmd> {
    HexPrefix(t, cx, cy, r, 6) + [PathCmd.ClosePath]
  }

  /** The commands of a loop prefix: a move to vertex 0, then a line to each later vertex. */
  lemma {:induction false} HexPrefixAt(t: Trig, cx: real, cy: real, r: real, n: nat, k: nat)
    requires k < n
    ensures HexPrefix(t, cx, cy, r, n)[k] ==
      if k == 0 then PathCmd.MoveTo(VertexX(t, cx, r, 0), VertexY(t, cy, r, 0))
      else PathCmd.LineTo(VertexX(t, cx, r, k), VertexY(t, cy, r, k))
  {
    if k < n - 1 {
      HexPrefixAt(t, cx, cy, r, n - 1, k);
    }
  }

  /** The hexagon is one closed path of six vertices: a `moveTo`, exactly five `lineTo`,
      then `closePath`; vertex `i` lies at distance `r` from the centre at angle `HexAngle(i)`. */
  lemma HexagonShape(t: Trig, cx: real, cy: real, r: real)
    ensures var p := HexagonPath(t, cx, cy, r);
      |p| == 7 && p[0].MoveTo? && p[6].ClosePath? &&
      (forall k :: 1 <= k <= 5 ==> p[k].LineTo?) &&
      (forall k :: 0 <= k <= 5 ==>
        (p[k].MoveTo? || p[k].LineTo?) &&
        p[k].x == cx + r * t.cos(HexAngle(t, k)) && p[k].y == cy + r * t.sin(HexAngle(t, k)))
  {
    forall k | 0 <= k <= 5
      ensures HexagonPath(t, cx, cy, r)[k] == HexPrefix(t, cx, cy, r, 6)[k]
    {
    }
    forall k | 0 <= k <= 5 {
      HexPrefixAt(t, cx, cy, r, 6, k);
    }
  }

  /** `drawHexagon`: begin a path and trace the six vertices, then close it. Only the current
      path changes. */
  method DrawHexagon(ctx: Context2D, t: Trig, cx: real, cy: real, r: real)
    modifies ctx
    ensures ctx.path == HexagonPath(t, cx, cy, r)
    ensures ctx.state == old(ctx.state) && ctx.stack == old(ctx.stack) && ctx.ops == old(ctx.ops)
  {
    ctx.BeginPath();
    for i := 0 to 6
      invariant ctx.path == HexPrefix(t, cx, cy, r, i)
      invariant ctx.state == old(ctx.state) && ctx.stack == old(ctx.stack) && ctx.ops == old(ctx.ops)
    {
      var x := cx + r * t.cos(HexAngle(t, i));
      var y := cy + r * t.sin(HexAngle(t, i));
      assert x == VertexX(t, cx, r, i) && y == VertexY(t, cy, r, i);
      assert HexPrefix(t, cx, cy, r, i + 1)
        == HexPrefix(t, cx, cy, r, i) + [if i == 0 then PathCmd.MoveTo(x, y) else PathCmd.LineTo(x, y)];
      if i == 0 {
        ctx.MoveTo(x, y);
      } else {
        ctx.LineTo(x, y);
      }
    }
    ctx.ClosePath();
  }

  /** The font of the initials at a given size. */
  function LogoFont(size: nat): Font {
    Font("700", FontSize(size), LogoFamily)
  }

  /** The gap between the letters: `size * 0.02`. */
  function Spacing(size: nat): real {
    size as real * 0.02
  }

  /** The drawing states `renderLogo` sets up: for the background, the hexagon's fill, its
      stroke, and the initials. */
  const BackgroundState := InitialState.(fillStyle := Color(Cream))
  const HexFillState := BackgroundState.(fillStyle := Color(Brick))

  function HexStrokeState(size: nat): DrawState {
    HexFillState.(lineWidth := StrokeWidth(size) as real, strokeStyle := Color(Orange))
  }

  function InitialsState(size: nat): DrawState {
    HexStrokeState(size).(fillStyle := Color(Cream), textAlign := Center, textBaseline := Middle, font := LogoFont(size))
  }

  /** The hexagon of a `size` canvas. */
  function LogoHexagon(size: nat, t: Trig): seq<PathCmd> {
    var c := size as real / 2.0;
    HexagonPath(t, c, c, HexRadius(size) as real)
  }

  /** The hexagon's fill, then its stroke. */
  function HexLayers(size: nat, t: Trig): seq<Op> {
    [Op.Fill(LogoHexagon(size, t), HexFillState), Op.Stroke(LogoHexagon(size, t), HexStrokeState(size))]
  }

  /** The two letters, placed from their measured widths. */
  function InitialsOps(size: nat, measure: (Font, string) -> real): seq<Op> {
    var c := size as real / 2.0;
    var v := measure(LogoFont(size), "V");
    var s := measure(LogoFont(size), "S");
    var startX := c - (v + Spacing(size) + s) / 2.0;
    var y := c + TextDrop(size) as real;
    [Op.FillText("V", startX + v / 2.0, y, InitialsState(size)),
     Op.FillText("S", startX + v + Spacing(size) + s / 2.0, y, InitialsState(size))]
  }

  /** The draw log of `renderLogo(size)`. */
  function LogoOps(size: nat, t: Trig, measure: (Font, string) -> real): seq<Op> {
    [Op.FillRect(0.0, 0.0, size as real, size as real, BackgroundState)] + HexLayers(size, t) + InitialsOps(size, measure)
  }

  /** The hexagon layers of `renderLogo`: trace the hexagon, fill it brick, stroke it orange. */
  method DrawHexLayers(ctx: Context2D, size: nat, t: Trig)
    requires ctx.state == BackgroundState
    modifies ctx
    ensures ctx.ops == old(ctx.ops) + HexLayers(size, t)
    ensures ctx.state == HexStrokeState(size) && ctx.stack == old(ctx.stack)
  {
    var cx := size as real / 2.0;
    var cy := size as real / 2.0;
    var radius := HexRadius(size);

    DrawHexagon(ctx, t, cx, cy, radius as real);
    ctx.SetFillStyle(Color(Brick));
    ctx.Fill();

    StrokeWidthBounds(size, size);
    ctx.SetLineWidth(StrokeWidth(size) as real);
    ctx.SetStrokeStyle(Color(Orange));
    ctx.Stroke();
  }

  /** The initials of `renderLogo`: set the text state, measure the letters and draw them as
      one centred unit. */
  method DrawInitials(ctx: Context2D, size: nat)
    requires ctx.state == HexStrokeState(size)
    modifies ctx
    ensures ctx.ops == old(ctx.ops) + InitialsOps(size, ctx.measure)
    ensures ctx.state == InitialsState(size) && ctx.stack == old(ctx.stack)
  {
    var cx := size as real / 2.0;
    var cy := size as real / 2.0;
    ctx.SetFillStyle(Color(Cream));
    ctx.SetTextAlign(Center);
    ctx.SetTextBaseline(Middle);
    var fontSize := FontSize(size);
    ctx.SetFont(Font("700", fontSize, LogoFamily));

    var spacing := size as real * 0.02;
    var vWidth := ctx.MeasureText("V");
    var sWidth := ctx.MeasureText("S");
    var totalWidth := vWidth + spacing + sWidth;
    var startX := cx - totalWidth / 2.0;
    var y := cy + TextDrop(size) as real;
    vWidth := ctx.MeasureText("V");
    ctx.FillText("V", startX + vWidth / 2.0, y);
    vWidth := ctx.MeasureText("V");
    sWidth := ctx.MeasureText("S");
    ctx.FillText("S", startX + vWidth + spacing + sWidth / 2.0, y);
  }

  /** `renderLogo(size)`: draws the logo on a new `size` by `size` context. */
  method RenderLogo(size: nat, t: Trig, measure: (Font, string) -> real) returns (ctx: Context2D)
    ensures fresh(ctx) && ctx.width == size && ctx.height == size
    ensures ctx.ops == LogoOps(size, t, measure) && ctx.stack == []
  {
    ctx := new Context2D(size, size, measure);
    ctx.SetFillStyle(Color(Cream));
    ctx.FillRect(0.0, 0.0, size as real, size as real);
    DrawHexLayers(ctx, size, t);
    DrawInitials(ctx, size);
  }

  /** The layers, in order: the cream background over the whole canvas, the hexagon filled
      brick, the same hexagon stroked orange at the stroke width, then "V" and "S" in cream,
      centred and middle-aligned in the bold logo font. */
  lemma LogoLayers(size: nat, t: Trig, measure: (Font, string) -> real)
    ensures var ops := LogoOps(size, t, measure);
      var hex := LogoHexagon(size, t);
      |ops| == 5 &&
      ops[0] == Op.FillRect(0.0, 0.0, size as real, size as real, ops[0].st) &&
      ops[0].st.fillStyle == Color(Cream) &&
      ops[1] == Op.Fill(hex, ops[1].st) && ops[1].st.fillStyle == Color(Brick) &&
      ops[2] == Op.Stroke(hex, ops[2].st) && ops[2].st.strokeStyle == Color(Orange) &&
      ops[2].st.lineWidth == StrokeWidth(size) as real &&
      ops[3].FillText? && ops[3].text == "V" && ops[4].FillText? && ops[4].text == "S" &&
      ops[3].st == ops[4].st && ops[3].st.fillStyle == Color(Cream) &&
      ops[3].st.font == Font("700", FontSize(size), LogoFamily) &&
      ops[3].st.textAlign == Center && ops[3].st.textBaseline == Middle
  {
  }

  /** Every layer is drawn opaque and without a shadow. */
  lemma LogoPlain(size: nat, t: Trig, measure: (Font, string) -> real)
    ensures forall op :: op in LogoOps(size, t, measure) ==>
      OpState(op).globalAlpha == 1.0 && NoShadow(OpState(op).shadow)
  {
  }

  /** The initials form one unit centred on the canvas: the left edge of "V" and the right
      edge of "S" are symmetric about `cx`, and the gap between the letters is
      `size * 0.02`, whatever widths the font gives the glyphs. */
  lemma LettersCentred(size: nat, t: Trig, measure: (Font, string) -> real)
    ensures var ops := LogoOps(size, t, measure);
      var v := measure(LogoFont(size), "V");
      var s := measure(LogoFont(size), "S");
      var vLeft := LeftEdge(ops[3].st.textAlign, ops[3].x, v);
      var sLeft := LeftEdge(ops[4].st.textAlign, ops[4].x, s);
      vLeft + (sLeft + s) == 2.0 * (size as real / 2.0) &&
      sLeft - (vLeft + v) == Spacing(size)
  {
  }

  /** Both letters sit on the same line, `floor(size * 0.01)` below the centre. */
  lemma LettersSameY(size: nat, t: Trig, measure: (Font, string) -> real)
    ensures var ops := LogoOps(size, t, measure);
      ops[3].y == ops[4].y == size as real / 2.0 + TextDrop(size) as real
  {
  }

  /** The hexagon is centred on the canvas, its radius is at most half the size, and the
      initials' font is no larger than the radius. */
  lemma HexagonFits(size: nat, t: Trig, measure: (Font, string) -> real)
    ensures var hex := LogoOps(size, t, measure)[1].path;
      hex == HexagonPath(t, size as real / 2.0, size as real / 2.0, HexRadius(size) as real)
    ensures 2 * HexRadius(size) <= size && FontSize(size) <= HexRadius(size)
  {
    RadiusFits(size);
    FontWithinRadius(size);
  }

  /** The three canvases the script renders, at sizes 500, 180 and 32. */
  method GenerateLogos(t: Trig, measure: (Font, string) -> real) returns (logo: Context2D, touch: Context2D, favicon: Context2D)
    ensures logo.ops == LogoOps(LogoSizes[0], t, measure)
    ensures touch.ops == LogoOps(LogoSizes[1], t, measure)
    ensures favicon.ops == LogoOps(LogoSizes[2], t, measure)
  {
    logo := RenderLogo(500, t, measure);
    touch := RenderLogo(180, t, measure);
    favicon := RenderLogo(32, t, measure);
  }
}

=== FILE: canvas.dfy ===
/** The part of the HTML canvas 2D context the drawing scripts use, as a recording context:
    it keeps the drawing state, the state stack of `save`/`restore`, the current path, and a
    log of every drawing operation together with the drawing state it was issued under.

    The rules follow the WHATWG HTML Living Standard, section 4.12.5.1 (the 2D rendering
    context): `save` pushes a copy of the drawing state, `restore` pops it and does nothing
    on an empty stack, the current path is not part of the drawing state, and the setters
    of `lineWidth`, `globalAlpha` and `shadowBlur` ignore values outside their range. */
module Canvas {

  /** What fills or strokes: a CSS colour, or a linear gradient captured by value. */
  datatype Paint = Color(css: string) | Linear(x0: real, y0: real, x1: real, y1: real, stops: seq<ColorStop>)

  datatype ColorStop = ColorStop(offset: real, color: string)

  datatype Shadow = Shadow(color: string, blur: real, offsetX: real, offsetY: real)

  /** A CSS font as the scripts write it: weight, size in pixels and family list. */
  datatype Font = Font(weight: string, px: nat, family: string)

  datatype TextAlign = Start | End | Left | Right | Center

  datatype TextBaseline = Top | Hanging | Middle | Alphabetic | Ideographic | Bottom

  /** The drawing-state members the scripts read or write. */
  datatype DrawState = DrawState(
    fillStyle: Paint,
    strokeStyle: Paint,
    lineWidth: real,
    globalAlpha: real,
    shadow: Shadow,
    font: Font,
    textAlign: TextAlign,
    textBaseline: TextBaseline)

  /** The transparent black of an unset shadow colour. */
  const NoShadowColor := "rgba(0, 0, 0, 0)"

  /** A shadow that draws nothing: transparent, unblurred, not offset. */
  predicate NoShadow(s: Shadow) {
    (s.color == NoShadowColor || s.color == "transparent") && s.blur == 0.0 && s.offsetX == 0.0 && s.offsetY == 0.0
  }

  /** The drawing state of a new context. */
  const InitialState := DrawState(
    Color("#000000"), Color("#000000"), 1.0, 1.0,
    Shadow(NoShadowColor, 0.0, 0.0, 0.0),
    Font("normal", 10, "sans-serif"), Start, Alphabetic)

  /** A new context draws opaque black with a one-pixel line and no shadow, in a 10px
      sans-serif font anchored at the start of the alphabetic baseline. */
  lemma InitialDefaults()
    ensures InitialState.globalAlpha == 1.0 && NoShadow(InitialState.shadow)
    ensures InitialState.fillStyle == Color("#000000") && InitialState.strokeStyle == Color("#000000")
    ensures InitialState.lineWidth == 1.0 && InitialState.font == Font("normal", 10, "sans-serif")
    ensures InitialState.textAlign == Start && InitialState.textBaseline == Alphabetic
  {
  }

  /** `Math.PI`, `Math.cos` and `Math.sin`, which the scripts' geometry goes through. */
  datatype Trig = Trig(pi: real, cos: real -> real, sin: real -> real)

  /** One command of a path. */
  datatype PathCmd =
    | MoveTo(x: real, y: real)
    | LineTo(x: real, y: real)
    | Arc(cx: real, cy: real, radius: real, startAngle: real, endAngle: real)
    | ClosePath

  /** One drawing operation, with the drawing state it used. */
  datatype Op =
    | FillRect(x: real, y: real, w: real, h: real, st: DrawState)
    | Fill(path: seq<PathCmd>, st: DrawState)
    | Stroke(path: seq<PathCmd>, st: DrawState)
    | FillText(text: string, x: real, y: real, st: DrawState)

  /** The state an operation was drawn under. */
  function OpState(op: Op): DrawState {
    match op
    case FillRect(_, _, _, _, st) => st
    case Fill(_, st) => st
    case Stroke(_, st) => st
    case FillText(_, _, _, st) => st
  }

  /** Stops in the order the gradient places them: by offset, and among equal offsets in the
      order they were added. */
  function InsertStop(stops: seq<ColorStop>, s: ColorStop): (r: seq<ColorStop>)
    ensures |r| == |stops| + 1
  {
    if stops == [] then [s]
    else if stops[0].offset <= s.offset then [stops[0]] + InsertStop(stops[1..], s)
    else [s] + stops
  }

  predicate StopsSorted(stops: seq<ColorStop>) {
    forall i, j :: 0 <= i < j < |stops| ==> stops[i].offset <= stops[j].offset
  }

  /** Inserting a stop keeps the stops sorted by offset and adds exactly that stop. */
  lemma {:induction false} InsertStopSorted(stops: seq<ColorStop>, s: ColorStop)
    requires StopsSorted(stops)
    ensures StopsSorted(InsertStop(stops, s))
    ensures multiset(InsertStop(stops, s)) == multiset(stops) + multiset{s}
  {
    InsertStopOrder(stops, s);
    InsertStopCount(stops, s);
  }

  lemma {:induction false} InsertStopOrder(stops: seq<ColorStop>, s: ColorStop)
    requires StopsSorted(stops)
    ensures StopsSorted(InsertStop(stops, s))
  {
    if stops != [] && stops[0].offset <= s.offset {
      InsertStopOrder(stops[1..], s);
      InsertStopFirst(stops[1..], s, stops[0].offset);
    }
  }

  lemma {:induction false} InsertStopCount(stops: seq<ColorStop>, s: ColorStop)
    ensures multiset(InsertStop(stops, s)) == multiset(stops) + multiset{s}
  {
    if stops != [] && stops[0].offset <= s.offset {
      InsertStopCount(stops[1..], s);
      assert stops == [stops[0]] + stops[1..];
    }
  }

  /** How many stops the new stop is placed after. */
  function InsertIndex(stops: seq<ColorStop>, s: ColorStop): (i: nat)
    ensures i <= |stops|
  {
    if stops == [] then 0
    else if stops[0].offset <= s.offset then 1 + InsertIndex(stops[1..], s)
    else 0
  }

  /** Insertion splices the new stop in at its index; the other stops keep their order. */
  lemma {:induction false} InsertStopSplit(stops: seq<ColorStop>, s: ColorStop)
    ensures var i := InsertIndex(stops, s); InsertStop(stops, s) == stops[..i] + [s] + stops[i..]
  {
    if stops != [] && stops[0].offset <= s.offset {
      var rest := stops[1..];
      var j := InsertIndex(rest, s);
      InsertStopSplit(rest, s);
      assert stops[..j + 1] == [stops[0]] + rest[..j];
      assert stops[j + 1..] == rest[j..];
    }
  }

  /** Every stop before the index has an offset at most the new one's. */
  lemma {:induction false} InsertIndexBefore(stops: seq<ColorStop>, s: ColorStop, k: nat)
    requires k < InsertIndex(stops, s)
    ensures stops[k].offset <= s.offset
  {
    if k > 0 {
      InsertIndexBefore(stops[1..], s, k - 1);
    }
  }

  /** The stop at the index, if any, has a larger offset than the new one. */
  lemma {:induction false} InsertIndexAfter(stops: seq<ColorStop>, s: ColorStop)
    ensures InsertIndex(stops, s) < |stops| ==> s.offset < stops[InsertIndex(stops, s)].offset
  {
    if stops != [] && stops[0].offset <= s.offset {
      InsertIndexAfter(stops[1..], s);
    }
  }

  /** Where the new stop lands: after every stop whose offset is at most its own, and before
      the first one whose offset is larger; the other stops keep their order. */
  lemma InsertStopAt(stops: seq<ColorStop>, s: ColorStop) returns (i: nat)
    ensures i <= |stops| && InsertStop(stops, s) == stops[..i] + [s] + stops[i..]
    ensures forall k :: 0 <= k < i ==> stops[k].offset <= s.offset
    ensures i < |stops| ==> s.offset < stops[i].offset
  {
    i := InsertIndex(stops, s);
    InsertStopSplit(stops, s);
    InsertIndexAfter(stops, s);
    forall k | 0 <= k < i
      ensures stops[k].offset <= s.offset
    {
      InsertIndexBefore(stops, s, k);
    }
  }

  /** Every stop of an insertion is at or after a bound that all the parts respect. */
  lemma {:induction false} InsertStopFirst(stops: seq<ColorStop>, s: ColorStop, lo: real)
    requires forall k :: 0 <= k < |stops| ==> lo <= stops[k].offset
    requires lo <= s.offset
    ensures forall k :: 0 <= k < |InsertStop(stops, s)| ==> lo <= InsertStop(stops, s)[k].offset
  {
    if stops != [] && stops[0].offset <= s.offset {
      InsertStopFirst(stops[1..], s, lo);
    }
  }

  /** A `CanvasGradient` from `createLinearGradient`, with the stops added so far. */
  class LinearGradient {
    const x0: real
    const y0: real
    const x1: real
    const y1: real
    var stops: seq<ColorStop>

    constructor (x0: real, y0: real, x1: real, y1: real)
      ensures this.x0 == x0 && this.y0 == y0 && this.x1 == x1 && this.y1 == y1
      ensures stops == []
    {
      this.x0, this.y0, this.x1, this.y1 := x0, y0, x1, y1;
      stops := [];
    }

    /** `addColorStop`: an offset outside [0, 1] is an `IndexSizeError` (here `ok` is false)
        and adds nothing; otherwise the stop is placed after every stop at an equal or
        smaller offset. */
    method AddColorStop(offset: real, color: string) returns (ok: bool)
      modifies this
      ensures ok <==> 0.0 <= offset <= 1.0
      ensures stops == if ok then InsertStop(old(stops), ColorStop(offset, color)) else old(stops)
    {
      ok := 0.0 <= offset <= 1.0;
      if ok {
        stops := InsertStop(stops, ColorStop(offset, color));
      }
    }

    /** The gradient as a paint value. */
    function AsPaint(): (p: Paint)
      reads this
      ensures p.Linear? && p.stops == stops
    {
      Linear(x0, y0, x1, y1, stops)
    }
  }

  /** A recording 2D context over a `width` by `height` canvas. Text widths come from
      `measure`, which stands for the font engine. */
  class Context2D {
    const width: nat
    const height: nat
    const measure: (Font, string) -> real
    var state: DrawState
    var stack: seq<DrawState>
    var path: seq<PathCmd>
    var ops: seq<Op>

    constructor (width: nat, height: nat, measure: (Font, string) -> real)
      ensures this.width == width && this.height == height && this.measure == measure
      ensures state == InitialState && stack == [] && path == [] && ops == []
    {
      this.width, this.height, this.measure := width, height, measure;
      state := InitialState;
      stack := [];
      path := [];
      ops := [];
    }

    method SetFillStyle(p: Paint)
      modifies this
      ensures state == old(state).(fillStyle := p)
      ensures stack == old(stack) && path == old(path) && ops == old(ops)
    {
      state := state.(fillStyle := p);
    }

    method SetStrokeStyle(p: Paint)
      modifies this
      ensures state == old(state).(strokeStyle := p)
      ensures stack == old(stack) && path == old(path) && ops == old(ops)
    {
      state := state.(strokeStyle := p);
    }

    /** Zero and negative widths are ignored. */
    method SetLineWidth(w: real)
      modifies this
      ensures state == if w > 0.0 then old(state).(lineWidth := w) else old(state)
      ensures stack == old(stack) && path == old(path) && ops == old(ops)
    {
      if w > 0.0 {
        state := state.(lineWidth := w);
      }
    }

    /** Values outside [0, 1] are ignored. */
    method SetGlobalAlpha(a: real)
      modifies this
      ensures state == if 0.0 <= a <= 1.0 then old(state).(globalAlpha := a) else old(state)
      ensures stack == old(stack) && path == old(path) && ops == old(ops)
    {
      if 0.0 <= a <= 1.0 {
        state := state.(globalAlpha := a);
      }
    }

    method SetShadowColor(c: string)
      modifies this
      ensures state == old(state).(shadow := old(state).shadow.(color := c))
      ensures stack == old(stack) && path == old(path) && ops == old(ops)
    {
      state := state.(shadow := state.shadow.(color := c));
    }

    /** Negative blur levels are ignored. */
    method SetShadowBlur(b: real)
      modifies this
      ensures state == if b >= 0.0 then old(state).(shadow := old(state).shadow.(blur := b)) else old(state)
      ensures stack == old(stack) && path == old(path) && ops == old(ops)
    {
      if b >= 0.0 {
        state := state.(shadow := state.shadow.(blur := b));
      }
    }

    method SetShadowOffsetY(y: real)
      modifies this
      ensures state == old(state).(shadow := old(state).shadow.(offsetY := y))
      ensures stack == old(stack) && path == old(path) && ops == old(ops)
    {
      state := state.(shadow := state.shadow.(offsetY := y));
    }

    method SetFont(f: Font)
      modifies this
      ensures state == old(state).(font := f)
      ensures stack == old(stack) && path == old(path) && ops == old(ops)
    {
      state := state.(font := f);
    }

    method SetTextAlign(a: TextAlign)
      modifies this
      ensures state == old(state).(textAlign := a)
      ensures stack == old(stack) && path == old(path) && ops == old(ops)
    {
      state := state.(textAlign := a);
    }

    method SetTextBaseline(b: TextBaseline)
      modifies this
      ensures state == old(state).(textBaseline := b)
      ensures stack == old(stack) && path == old(path) && ops == old(ops)
    {
      state := state.(textBaseline := b);
    }

    /** `save`: push a copy of the drawing state. */
    method Save()
      modifies this
      ensures stack == old(stack) + [old(state)]
      ensures state == old(state) && path == old(path) && ops == old(ops)
    {
      stack := stack + [state];
    }

    /** `restore`: pop the drawing state; nothing happens on an empty stack. */
    method Restore()
      modifies this
      ensures old(stack) == [] ==> stack == [] && state == old(state)
      ensures old(stack) != [] ==> state == old(stack)[|old(stack)| - 1] && stack == old(stack)[..|old(stack)| - 1]
      ensures path == old(path) && ops == old(ops)
    {
      if stack != [] {
        state := stack[|stack| - 1];
        stack := stack[..|stack| - 1];
      }
    }

    /** `beginPath`: empty the current path. */
    method BeginPath()
      modifies this
      ensures path == []
      ensures state == old(state) && stack == old(stack) && ops == old(ops)
    {
      path := [];
    }

    method MoveTo(x: real, y: real)
      modifies this
      ensures path == old(path) + [PathCmd.MoveTo(x, y)]
      ensures state == old(state) && stack == old(stack) && ops == old(ops)
    {
      path := path + [PathCmd.MoveTo(x, y)];
    }

    method LineTo(x: real, y: real)
      modifies this
      ensures path == old(path) + [PathCmd.LineTo(x, y)]
      ensures state == old(state) && stack == old(stack) && ops == old(ops)
    {
      path := path + [PathCmd.LineTo(x, y)];
    }

    method Arc(cx: real, cy: real, radius: real, startAngle: real, endAngle: real)
      modifies this
      ensures path == old(path) + [PathCmd.Arc(cx, cy, radius, startAngle, endAngle)]
      ensures state == old(state) && stack == old(stack) && ops == old(ops)
    {
      path := path + [PathCmd.Arc(cx, cy, radius, startAngle, endAngle)];
    }

    method ClosePath()
      modifies this
      ensures path == old(path) + [PathCmd.ClosePath]
      ensures state == old(state) && stack == old(stack) && ops == old(ops)
    {
      path := path + [PathCmd.ClosePath];
    }

    method FillRect(x: real, y: real, w: real, h: real)
      modifies this
      ensures ops == old(ops) + [Op.FillRect(x, y, w, h, old(state))]
      ensures state == old(state) && stack == old(stack) && path == old(path)
    {
      ops := ops + [Op.FillRect(x, y, w, h, state)];
    }

    /** `fill`: fill the current path, which stays current. */
    method Fill()
      modifies this
      ensures ops == old(ops) + [Op.Fill(old(path), old(state))]
      ensures state == old(state) && stack == old(stack) && path == old(path)
    {
      ops := ops + [Op.Fill(path, state)];
    }

    /** `stroke`: stroke the current path, which stays current. */
    method Stroke()
      modifies this
      ensures ops == old(ops) + [Op.Stroke(old(path), old(state))]
      ensures state == old(state) && stack == old(stack) && path == old(path)
    {
      ops := ops + [Op.Stroke(path, state)];
    }

    method FillText(text: string, x: real, y: real)
      modifies this
      ensures ops == old(ops) + [Op.FillText(text, x, y, old(state))]
      ensures state == old(state) && stack == old(stack) && path == old(path)
    {
      ops := ops + [Op.FillText(text, x, y, state)];
    }

    /** `measureText(text).width` in the current font. */
    method MeasureText(text: string) returns (w: real)
      ensures w == measure(state.font, text)
    {
      w := measure(state.font, text);
    }
  }

  /** The left edge of a text drawn at `x` with the given alignment and width, in a
      left-to-right context. */
  function LeftEdge(align: TextAlign, x: real, w: real): real {
    match align
    case Center => x - w / 2.0
    case Right => x - w
    case End => x - w
    case Left => x
    case Start => x
  }
}

=== FILE: float64.dfy ===
/** The IEEE 754 binary64 arithmetic that the logo's sizing formulas go through: positive
    normal numbers, decimal literals, small integers, multiplication rounded to nearest
    with ties to even, and `Math.floor`. Exponent overflow and subnormals never arise for
    the operands used here and are not modelled. */
module Float64 {

  /** 2 to the power `n`. */
  function Pow2(n: nat): (r: nat)
    ensures r >= 1
  {
    if n == 0 then 1 else 2 * Pow2(n - 1)
  }

  lemma {:induction false} Pow2Add(a: nat, b: nat)
    ensures Pow2(a + b) == Pow2(a) * Pow2(b)
  {
    if a > 0 {
      Pow2Add(a - 1, b);
    }
  }

  lemma Pow2Small()
    ensures Pow2(4) == 16 && Pow2(5) == 32 && Pow2(6) == 64 && Pow2(7) == 128
    ensures Pow2(8) == 256 && Pow2(9) == 512
  {
    assert Pow2(2) == 4;
    assert Pow2(4) == 16;
    assert Pow2(6) == 64;
    assert Pow2(8) == 256;
  }

  /** The powers of two the sizing formulas meet, as numbers. */
  lemma Pow2Values()
    ensures Pow2(5) == 32 && Pow2(6) == 64 && Pow2(7) == 128 && Pow2(8) == 256 && Pow2(9) == 512
    ensures Pow2(44) == 0x1000_0000_0000 && Pow2(45) == 0x2000_0000_0000
    ensures Pow2(47) == 0x8000_0000_0000 && Pow2(49) == 0x2_0000_0000_0000
    ensures Pow2(50) == 0x4_0000_0000_0000 && Pow2(51) == 0x8_0000_0000_0000
    ensures Pow2(52) == 0x10_0000_0000_0000 && Pow2(53) == 0x20_0000_0000_0000
    ensures Pow2(54) == 0x40_0000_0000_0000 && Pow2(58) == 0x400_0000_0000_0000
    ensures Pow2(59) == 0x800_0000_0000_0000
    ensures Pow2(105) == 0x200_0000_0000_0000_0000_0000_0000
  {
    Pow2Small();
    Pow2Add(8, 8);
    Pow2Add(16, 16);
    Pow2Add(32, 8);
    Pow2Add(40, 4);
    Pow2Add(40, 5);
    Pow2Add(40, 7);
    Pow2Add(40, 9);
    Pow2Add(45, 5);
    Pow2Add(45, 6);
    Pow2Add(45, 7);
    Pow2Add(45, 8);
    Pow2Add(45, 9);
    Pow2Add(50, 8);
    Pow2Add(50, 9);
    Pow2Add(52, 53);
  }

  /** The smallest and one past the largest 53-bit significand. */
  const MinSig: nat := 0x10_0000_0000_0000
  const MaxSig: nat := 0x20_0000_0000_0000

  /** A positive double `m * 2^e`. */
  datatype Double = Double(m: nat, e: int)

  /** The significand has exactly 53 bits. */
  predicate Normal(d: Double) {
    MinSig <= d.m < MaxSig
  }

  /** The value of a double as a real. */
  function Value(d: Double): real {
    if d.e >= 0 then (d.m * Pow2(d.e)) as real else d.m as real / Pow2(-d.e) as real
  }

  function Abs(x: int): nat {
    if x < 0 then -x else x
  }

  lemma MulLess(a: int, b: int, d: int)
    requires d > 0 && a * d < b * d
    ensures a < b
  {
  }

  lemma DivLower(p: nat, d: nat, k: nat)
    requires d > 0 && k * d <= p
    ensures k <= p / d
  {
    var q := p / d;
    assert p < (q + 1) * d;
    MulLess(k, q + 1, d);
  }

  lemma DivUpper(p: nat, d: nat, k: nat)
    requires d > 0 && p < k * d
    ensures p / d < k
  {
    var q := p / d;
    assert q * d <= p;
    MulLess(q, k, d);
  }

  /** `q * d` is a multiple of `d` nearest to `p`, and the even one of two equally near. */
  predicate NearestEven(p: int, d: int, q: int) {
    2 * Abs(p - q * d) <= d && (2 * Abs(p - q * d) == d ==> q % 2 == 0)
  }

  /** `p / 2^s` rounded to the nearest integer, ties to the even one: the floor or the
      ceiling of the exact quotient. */
  function RoundShift(p: nat, s: nat): (q: nat)
    ensures NearestEven(p, Pow2(s), q)
    ensures q == p / Pow2(s) || q == p / Pow2(s) + 1
  {
    RoundCases(p, Pow2(s));
    if RoundsUp(p, Pow2(s)) then p / Pow2(s) + 1 else p / Pow2(s)
  }

  /** The remainder is over half of `d`, or exactly half with an odd quotient. */
  predicate RoundsUp(p: nat, d: nat)
    requires d > 0
  {
    2 * (p % d) > d || (2 * (p % d) == d && (p / d) % 2 == 1)
  }

  lemma RoundCases(p: nat, d: nat)
    requires d > 0
    ensures if RoundsUp(p, d) then NearestEven(p, d, p / d + 1) else NearestEven(p, d, p / d)
  {
    var q := p / d;
    var r := p % d;
    assert p == q * d + r;
    RoundUp(p, d, q, r);
  }

  lemma RoundUp(p: int, d: int, q: int, r: int)
    requires p == q * d + r
    ensures p - (q + 1) * d == r - d
  {
  }

  lemma MulSub(q: int, r: int, d: int)
    ensures q * d - r * d == (q - r) * d
  {
  }

  lemma MulAtLeast(t: int, d: int)
    requires t >= 1 && d > 0
    ensures t * d >= d
  {
  }

  /** `q * d` is less than half of `d` away from `p`. */
  predicate StrictlyNearest(p: int, d: int, q: int) {
    2 * Abs(p - q * d) < d
  }

  /** Two multiples of `d` cannot both lie within half of `d` of `p`, one of them strictly. */
  lemma UniqueNear(p: int, d: int, q: int, r: int)
    requires d > 0 && 2 * Abs(p - q * d) < d && 2 * Abs(p - r * d) <= d
    ensures q == r
  {
    MulSub(q, r, d);
    if q > r {
      MulAtLeast(q - r, d);
    } else if r > q {
      MulSub(r, q, d);
      MulAtLeast(r - q, d);
    }
  }

  /** Without a tie the nearest integer is the only one within half a unit. */
  lemma RoundShiftIs(p: nat, s: nat, q: nat)
    requires StrictlyNearest(p, Pow2(s), q)
    ensures RoundShift(p, s) == q
  {
    UniqueNear(p, Pow2(s), q, RoundShift(p, s));
  }

  /** The double nearest to `num / den`, with no tie, is `d`: how a decimal literal is read. */
  predicate IsLiteral(d: Double, num: nat, den: nat) {
    Normal(d) && d.e < 0 && den > 0 && 2 * Abs(num * Pow2(-d.e) - d.m * den) < den
  }

  /** The product `a * b`, rounded to nearest, ties to even: the significand product is
      shifted right by 52 or 53 bits to keep 53 of them, and carries into a new binade when
      rounding reaches 2^53. */
  function Mul(a: Double, b: Double): (c: Double)
    requires Normal(a) && Normal(b)
    ensures Normal(c)
  {
    var p := Product(a.m, b.m);
    var s := ShiftFor(p);
    MulMono(a.m, b.m, MinSig, MaxSig);
    ShiftBounds(p, s);
    Carry(RoundShift(p, s), a.e + b.e + s)
  }

  /** How far a product of two 53-bit significands is shifted right to keep 53 bits. */
  function ShiftFor(p: nat): nat {
    if p < Pow2(105) then 52 else 53
  }

  /** A rounded significand of 2^53 carries into the next binade: the result is normal and
      has the value of `q * 2^e`. */
  function Carry(q: nat, e: int): (c: Double)
    requires MinSig <= q <= MaxSig
    ensures Normal(c)
    ensures Value(c) == Value(Double(q, e))
  {
    if q == MaxSig then CarryValue(e); Double(MinSig, e + 1) else Double(q, e)
  }

  /** `2^53 * 2^e` and `2^52 * 2^(e+1)` are the same number. */
  lemma CarryValue(e: int)
    ensures Value(Double(MinSig, e + 1)) == Value(Double(MaxSig, e))
  {
    if e >= 0 {
      DoubledScale(MinSig, Pow2(e));
    } else if e == -1 {
      assert Pow2(1) == 2;
    } else {
      HalvedFraction(MinSig as real, Pow2(-e - 1) as real);
    }
  }

  lemma DoubledScale(m: nat, p: nat)
    ensures m * (2 * p) == (2 * m) * p
  {
  }

  lemma HalvedFraction(a: real, d: real)
    requires d > 0.0
    ensures (2.0 * a) / (2.0 * d) == a / d
  {
  }

  function Product(x: nat, y: nat): nat {
    x * y
  }

  /** The significand of a product of two 53-bit significands, shifted by 52 or 53 bits
      to fit, lies in [2^52, 2^53], the upper end only by rounding. */
  lemma ShiftBounds(p: nat, s: nat)
    requires MinSig * MinSig <= p < MaxSig * MaxSig
    requires s == ShiftFor(p)
    ensures MinSig <= RoundShift(p, s) <= MaxSig
  {
    Pow2Values();
    if s == 52 {
      DivLower(p, Pow2(52), MinSig);
      DivUpper(p, Pow2(52), MaxSig);
    } else {
      DivLower(p, Pow2(53), MinSig);
      DivUpper(p, Pow2(53), MaxSig);
    }
  }

  lemma MulMono(x: nat, y: nat, lo: nat, hi: nat)
    requires 0 < lo <= x < hi && lo <= y < hi
    ensures lo * lo <= Product(x, y) < hi * hi
  {
    MulLeRight(lo, x, lo);
    MulLeRight(lo, y, x);
    MulLtRight(x, hi, y);
    MulLtRight(y, hi, hi);
  }

  lemma MulLeRight(a: int, b: int, c: nat)
    requires a <= b
    ensures c * a <= c * b
  {
  }

  lemma MulLtRight(a: int, b: int, c: int)
    requires a < b && c > 0
    ensures a * c < b * c
  {
  }

  /** `n` as a double, exactly: the significand `n` shifted left until it has 53 bits. */
  function FromNat(n: nat): (d: Double)
    requires 0 < n < MaxSig
    ensures Normal(d) && d.e <= 0 && d.m == n * Pow2(-d.e)
  {
    Normalize(n, 0)
  }

  function Normalize(m: nat, e: int): (d: Double)
    requires 0 < m < MaxSig && e <= 0
    ensures Normal(d) && d.e <= e && d.m == m * Pow2(e - d.e)
    decreases MaxSig - m
  {
    if m >= MinSig then
      Double(m, e)
    else
      var d := Normalize(2 * m, e - 1);
      Twice(m, e - d.e);
      d
  }

  lemma Twice(m: int, k: nat)
    requires k >= 1
    ensures 2 * m * Pow2(k - 1) == m * Pow2(k)
  {
  }

  /** A larger exponent scales the significand at least twice as much. */
  lemma ScaleUp(n: nat, k: nat, j: nat)
    ensures k < j ==> n * Pow2(j) >= 2 * (n * Pow2(k))
  {
    if k < j {
      Pow2Add(k, j - k);
      var t := Pow2(j - k);
      assert t >= 2;
      MulAssoc(n, Pow2(k), t);
      MulLeRight(2, t, n * Pow2(k));
    }
  }

  lemma MulAssoc(a: int, b: int, c: int)
    ensures a * (b * c) == (a * b) * c
  {
  }

  /** Only one power of two brings `n` into the 53-bit range. */
  lemma ScaleUnique(n: nat, k: nat, j: nat)
    requires MinSig <= n * Pow2(k) < MaxSig && MinSig <= n * Pow2(j) < MaxSig
    ensures k == j
  {
    ScaleUp(n, k, j);
    ScaleUp(n, j, k);
  }

  /** `FromNat(n)` is `n` shifted left by the one amount that gives it 53 bits. */
  lemma FromNatIs(n: nat, j: nat)
    requires 0 < n < MaxSig && MinSig <= Product(n, Pow2(j)) < MaxSig
    ensures FromNat(n) == Double(Product(n, Pow2(j)), -(j as int))
  {
    ScaleUnique(n, -FromNat(n).e, j);
  }

  /** `Math.floor` of a positive double. */
  function Floor(d: Double): (k: int)
    ensures k as real <= Value(d) < (k + 1) as real
  {
    if d.e >= 0 then d.m * Pow2(d.e)
    else
      FloorDiv(d.m, Pow2(-d.e));
      d.m / Pow2(-d.e)
  }

  lemma FloorDiv(m: nat, den: nat)
    requires den > 0
    ensures (m / den) as real <= m as real / den as real < (m / den + 1) as real
  {
    var q := m / den;
    var r := m % den;
    assert m as real == q as real * den as real + r as real;
    assert m as real / den as real == q as real + r as real / den as real;
  }

  /** `k` is the floor of `d` when `d` lies in [k, k + 1). */
  lemma FloorIs(d: Double, k: nat)
    requires d.e < 0 && k * Pow2(-d.e) <= d.m < (k + 1) * Pow2(-d.e)
    ensures Floor(d) == k
  {
    DivLower(d.m, Pow2(-d.e), k);
    DivUpper(d.m, Pow2(-d.e), k + 1);
  }

  /** The product is `q * 2^(a.e + b.e + s)` when `q` is within less than half a unit of the
      exact significand product shifted by `s`, and needs no carry. */
  lemma MulIs(a: Double, b: Double, s: nat, q: nat)
    requires Normal(a) && Normal(b) && q < MaxSig
    requires s == ShiftFor(Product(a.m, b.m))
    requires StrictlyNearest(Product(a.m, b.m), Pow2(s), q)
    ensures Mul(a, b) == Double(q, a.e + b.e + s)
  {
    RoundShiftIs(Product(a.m, b.m), s, q);
  }

  /** `Math.floor(n * c)` in JavaScript, for a small positive integer `n` and a double `c`. */
  function FloorTimes(n: nat, c: Double): (k: int)
    requires 0 < n < MaxSig && Normal(c)
    ensures k as real <= Value(Mul(FromNat(n), c)) < (k + 1) as real
  {
    Floor(Mul(FromNat(n), c))
  }
}

=== FILE: og_image.dfy ===
/** The Open Graph image: a 1200 by 630 canvas with a vertical cream-orange-brick gradient,
    a faint dark-brown overlay of three sine waves and a circuit of branches and nodes, the
    title with a soft shadow and the subtitle beneath it. */
module OgImage {
  import opened Canvas

  const Width: nat := 1200
  const Height: nat := 630

  const Cream := "#F5E9E4"
  const Orange := "#FFA046"
  const Brick := "#D4451D"
  const White := "#FFFFFF"
  const Brown := "#4B1F12"
  const TextFamily := "Arial, Helvetica, sans-serif"

  const Title := "Varun Samiyani"
  const Subtitle := "Frontend Developer & AI Explorer"

  /** The background gradient: from the top edge to the bottom edge, cream at 0, orange at
      0.5 and brick at 1. */
  const BannerStops := [ColorStop(0.0, Cream), ColorStop(0.5, Orange), ColorStop(1.0, Brick)]
  const BannerGradient := Linear(0.0, 0.0, 0.0, Height as real, BannerStops)

  /** The stops run from the top colour to the bottom colour in ascending order, over a
      gradient line that is vertical and spans the canvas. */
  lemma GradientStops()
    ensures StopsSorted(BannerGradient.stops) && |BannerGradient.stops| == 3
    ensures BannerGradient.stops[0] == ColorStop(0.0, Cream)
    ensures BannerGradient.stops[1] == ColorStop(0.5, Orange)
    ensures BannerGradient.stops[2] == ColorStop(1.0, Brick)
    ensures BannerGradient.x0 == BannerGradient.x1 && BannerGradient.y0 == 0.0
    ensures BannerGradient.y1 == Height as real
  {
  }

  /** Builds the gradient stop by stop and fills the whole canvas with it. */
  method DrawGradient(ctx: Context2D)
    modifies ctx
    ensures ctx.state == old(ctx.state).(fillStyle := BannerGradient)
    ensures ctx.ops == old(ctx.ops) + [FillRect(0.0, 0.0, Width as real, Height as real, ctx.state)]
    ensures ctx.stack == old(ctx.stack) && ctx.path == old(ctx.path)
  {
    var grd := new LinearGradient(0.0, 0.0, 0.0, Height as real);
    var ok := grd.AddColorStop(0.0, Cream);
    assert grd.stops == [ColorStop(0.0, Cream)];
    ok := grd.AddColorStop(0.5, Orange);
    assert grd.stops == [ColorStop(0.0, Cream), ColorStop(0.5, Orange)];
    ok := grd.AddColorStop(1.0, Brick);
    assert grd.stops == BannerStops by {
      assert InsertStop([ColorStop(0.5, Orange)], ColorStop(1.0, Brick))
        == [ColorStop(0.5, Orange), ColorStop(1.0, Brick)];
    }
    ctx.SetFillStyle(grd.AsPaint());
    ctx.FillRect(0.0, 0.0, Width as real, Height as real);
  }

  /** The state the title is drawn under: white, bold 90px, left-aligned from the top, with a
      quarter-opaque black shadow blurred by 12 and dropped by 4. */
  function TitleState(s: DrawState): DrawState {
    s.(fillStyle := Color(White), font := Font("bold", 90, TextFamily), textAlign := Left,
       textBaseline := Top, shadow := s.shadow.(color := "rgba(0,0,0,0.25)", blur := 12.0, offsetY := 4.0))
  }

  /** The state after the title: the shadow colour, blur and drop are reset. */
  function AfterTitle(s: DrawState): DrawState {
    var t := TitleState(s);
    t.(shadow := t.shadow.(color := "transparent", blur := 0.0, offsetY := 0.0))
  }

  method DrawTitle(ctx: Context2D)
    modifies ctx
    ensures ctx.ops == old(ctx.ops) + [FillText(Title, 80.0, 170.0, TitleState(old(ctx.state)))]
    ensures ctx.state == AfterTitle(old(ctx.state))
    ensures ctx.stack == old(ctx.stack) && ctx.path == old(ctx.path)
  {
    ctx.SetFillStyle(Color(White));
    ctx.SetFont(Font("bold", 90, TextFamily));
    ctx.SetTextAlign(Left);
    ctx.SetTextBaseline(Top);
    ctx.SetShadowColor("rgba(0,0,0,0.25)");
    ctx.SetShadowBlur(12.0);
    ctx.SetShadowOffsetY(4.0);
    ctx.FillText(Title, 80.0, 170.0);
    ctx.SetShadowColor("transparent");
    ctx.SetShadowBlur(0.0);
    ctx.SetShadowOffsetY(0.0);
  }

  /** The state the subtitle is drawn under: cream, 400 weight at 40px, left-aligned from
      the top. */
  function SubtitleState(s: DrawState): DrawState {
    s.(fillStyle := Color(Cream), font := Font("400", 40, TextFamily), textAlign := Left, textBaseline := Top)
  }

  method DrawSubtitle(ctx: Context2D)
    modifies ctx
    ensures ctx.ops == old(ctx.ops) + [FillText(Subtitle, 80.0, 280.0, ctx.state)]
    ensures ctx.state == SubtitleState(old(ctx.state))
    ensures ctx.stack == old(ctx.stack) && ctx.path == old(ctx.path)
  {
    ctx.SetFillStyle(Color(Cream));
    ctx.SetFont(Font("400", 40, TextFamily));
    ctx.SetTextAlign(Left);
    ctx.SetTextBaseline(Top);
    ctx.FillText(Subtitle, 80.0, 280.0);
  }

  /** The waves' shared baseline, 180 above the bottom edge. */
  const BaseY: nat := Height - 180

  /** Wave `i` (0 for the main wave, 1 and 2 for the parallel ones) sits `28 * i` below the
      baseline, with wavelength `160 - 15 * i` and amplitude `22 - 6 * i`. */
  function WaveOffset(i: nat): nat {
    28 * i
  }

  function Wavelength(i: nat): int {
    160 - 15 * i
  }

  function Amplitude(i: nat): int {
    22 - 6 * i
  }

  /** The angle wave `i` passes the sine at column `x`: a full turn per wavelength. */
  function Phase(t: Trig, i: nat, x: nat): real {
    assert Wavelength(i) != 0;
    x as real / Wavelength(i) as real * t.pi * 2.0
  }

  /** The height of wave `i` at column `x`. */
  function WaveY(t: Trig, i: nat, x: nat): real {
    (BaseY + WaveOffset(i)) as real + t.sin(Phase(t, i, x)) * Amplitude(i) as real
  }

  /** The first `n` points of wave `i`, one per column from 0. */
  function WavePoints(t: Trig, i: nat, n: nat): (p: seq<PathCmd>)
    ensures |p| == n
  {
    if n == 0 then [] else WavePoints(t, i, n - 1) + [PathCmd.LineTo((n - 1) as real, WaveY(t, i, n - 1))]
  }

  /** The path of wave `i`: a move to the left edge at its height, then a point at every
      column from 0 to the right edge inclusive. */
  function WavePath(t: Trig, i: nat): seq<PathCmd> {
    [PathCmd.MoveTo(0.0, (BaseY + WaveOffset(i)) as real)] + WavePoints(t, i, Width + 1)
  }

  /** The points of a wave are at consecutive columns, each at the wave's height there. */
  lemma {:induction false} WavePointsAt(t: Trig, i: nat, n: nat, k: nat)
    requires k < n
    ensures WavePoints(t, i, n)[k] == PathCmd.LineTo(k as real, WaveY(t, i, k))
  {
    if k < n - 1 {
      WavePointsAt(t, i, n - 1, k);
    }
  }

  /** A wave path starts with one move and then visits each of the 1201 columns from 0 to
      1200 in order, with a line to the wave's height at that column. */
  lemma WaveShape(t: Trig, i: nat)
    ensures |WavePath(t, i)| == Width + 2
    ensures WavePath(t, i)[0] == PathCmd.MoveTo(0.0, (BaseY + WaveOffset(i)) as real)
    ensures forall k :: 0 <= k <= Width ==> WavePath(t, i)[k + 1] == PathCmd.LineTo(k as real, WaveY(t, i, k))
  {
    forall k | 0 <= k <= Width
      ensures WavePath(t, i)[k + 1] == PathCmd.LineTo(k as real, WaveY(t, i, k))
    {
      WavePointsAt(t, i, Width + 1, k);
    }
  }

  /** Each of the three waves has a positive wavelength and amplitude, and, as sine stays
      within [-1, 1], lies wholly inside the canvas. */
  lemma WaveInside(t: Trig, i: nat, x: nat)
    requires i <= 2
    requires -1.0 <= t.sin(Phase(t, i, x)) <= 1.0
    ensures Wavelength(i) > 0 && Amplitude(i) > 0
    ensures 0.0 <= WaveY(t, i, x) <= Height as real
  {
    var v := t.sin(Phase(t, i, x));
    assert WaveY(t, i, x) == (BaseY + WaveOffset(i)) as real + v * Amplitude(i) as real;
    if i == 0 {
      assert Amplitude(i) as real == 22.0 && (BaseY + WaveOffset(i)) as real == 450.0;
    } else if i == 1 {
      assert Amplitude(i) as real == 16.0 && (BaseY + WaveOffset(i)) as real == 478.0;
    } else {
      assert Amplitude(i) as real == 10.0 && (BaseY + WaveOffset(i)) as real == 506.0;
    }
  }

  /** Traces wave `i` as the current path, point by point. The main wave (`i` = 0) is
      traced with no offset and the base wavelength and amplitude, as the parallel waves'
      formula gives at `i` = 0. */
  method TraceWave(ctx: Context2D, t: Trig, i: nat)
    modifies ctx
    ensures ctx.path == WavePath(t, i)
    ensures ctx.state == old(ctx.state) && ctx.stack == old(ctx.stack) && ctx.ops == old(ctx.ops)
  {
    ctx.BeginPath();
    ctx.MoveTo(0.0, (BaseY + WaveOffset(i)) as real);
    for x := 0 to Width + 1
      invariant ctx.path == [PathCmd.MoveTo(0.0, (BaseY + WaveOffset(i)) as real)] + WavePoints(t, i, x)
      invariant ctx.state == old(ctx.state) && ctx.stack == old(ctx.stack) && ctx.ops == old(ctx.ops)
    {
      ctx.LineTo(x as real, WaveY(t, i, x));
    }
  }

  /** The line width wave `i` is stroked with: 3 for the main wave, 2 for the others. */
  function WaveWidth(i: nat): real {
    if i == 0 then 3.0 else 2.0
  }

  /** The strokes of the first `n` waves under overlay state `o`. */
  function WaveOps(o: DrawState, t: Trig, n: nat): (ops: seq<Op>)
    ensures |ops| == n
  {
    if n == 0 then [] else WaveOps(o, t, n - 1) + [Stroke(WavePath(t, n - 1), o.(lineWidth := WaveWidth(n - 1)))]
  }

  /** Wave `k` is stroked along its own path, under the overlay state with its own width. */
  lemma {:induction false} WaveOpsAt(o: DrawState, t: Trig, n: nat, k: nat)
    requires k < n
    ensures WaveOps(o, t, n)[k] == Stroke(WavePath(t, k), o.(lineWidth := WaveWidth(k)))
  {
    if k < n - 1 {
      WaveOpsAt(o, t, n - 1, k);
    }
  }

  /** Strokes the main wave and then the two parallel ones. */
  method DrawWaves(ctx: Context2D, t: Trig)
    modifies ctx
    ensures ctx.ops == old(ctx.ops) + WaveOps(old(ctx.state), t, 3)
    ensures ctx.state == old(ctx.state).(lineWidth := 2.0)
    ensures ctx.stack == old(ctx.stack)
  {
    TraceWave(ctx, t, 0);
    ctx.SetLineWidth(3.0);
    ctx.Stroke();
    for i := 1 to 3
      invariant ctx.ops == old(ctx.ops) + WaveOps(old(ctx.state), t, i)
      invariant ctx.state == old(ctx.state).(lineWidth := WaveWidth(i - 1))
      invariant ctx.stack == old(ctx.stack)
    {
      TraceWave(ctx, t, i);
      ctx.SetLineWidth(2.0);
      ctx.Stroke();
    }
  }

  /** The circuit: a vertical bus at x 840 from y 140 to 440, and four horizontal branches
      from it, at the drops in `Branches`, each shorter by 30 than the one above. */
  const BusX: nat := Width - 360
  const BusTop: nat := 140
  const Branches: seq<nat> := [60, 140, 220, 280]

  function BranchY(idx: nat): nat
    requires idx < |Branches|
  {
    BusTop + Branches[idx]
  }

  function BranchEnd(idx: nat): int {
    BusX + 220 - idx * 30
  }

  /** The radius of the node drawn at the end of every branch. */
  const NodeRadius := 6.0

  /** The stroke of branch `idx` and the fill of its end node. */
  function BranchOps(c: DrawState, t: Trig, idx: nat): seq<Op>
    requires idx < |Branches|
  {
    var y := BranchY(idx) as real;
    var x := BranchEnd(idx) as real;
    [Stroke([PathCmd.MoveTo(BusX as real, y), PathCmd.LineTo(x, y)], c),
     Fill([PathCmd.Arc(x, y, NodeRadius, 0.0, t.pi * 2.0)], c)]
  }

  /** The operations of the first `n` branches. */
  function BranchesOps(c: DrawState, t: Trig, n: nat): (ops: seq<Op>)
    requires n <= |Branches|
    ensures |ops| == 2 * n
  {
    if n == 0 then [] else BranchesOps(c, t, n - 1) + BranchOps(c, t, n - 1)
  }

  /** Branch `idx`'s operations are at positions `2 * idx` and `2 * idx + 1`. */
  lemma {:induction false} BranchesOpsAt(c: DrawState, t: Trig, n: nat, idx: nat)
    requires idx < n <= |Branches|
    ensures BranchesOps(c, t, n)[2 * idx] == BranchOps(c, t, idx)[0]
    ensures BranchesOps(c, t, n)[2 * idx + 1] == BranchOps(c, t, idx)[1]
  {
    if idx < n - 1 {
      BranchesOpsAt(c, t, n - 1, idx);
    }
  }

  /** The bus stroke followed by every branch. */
  function CircuitOps(c: DrawState, t: Trig): seq<Op> {
    [Stroke([PathCmd.MoveTo(BusX as real, BusTop as real), PathCmd.LineTo(BusX as real, (BusTop + 300) as real)], c)]
      + BranchesOps(c, t, |Branches|)
  }

  /** The branches leave the bus below its top and no lower than its bottom, further down one
      after the other; they end right of the bus and left of the right edge, each shorter than
      the one above, and every node lies inside the canvas. */
  lemma BranchGeometry(idx: nat)
    requires idx < |Branches|
    ensures BusTop < BranchY(idx) <= BusTop + 300
    ensures idx + 1 < |Branches| ==> BranchY(idx) < BranchY(idx + 1) && BranchEnd(idx + 1) < BranchEnd(idx)
    ensures BusX < BranchEnd(idx) && BranchEnd(idx) as real + NodeRadius <= Width as real
    ensures BranchY(idx) as real + NodeRadius <= Height as real
  {
  }

  /** Sets the line width and draws the bus and the branches, in order. */
  method DrawCircuit(ctx: Context2D, t: Trig)
    modifies ctx
    ensures ctx.state == old(ctx.state).(lineWidth := 2.0)
    ensures ctx.ops == old(ctx.ops) + CircuitOps(ctx.state, t)
    ensures ctx.stack == old(ctx.stack)
  {
    ctx.SetLineWidth(2.0);
    ctx.BeginPath();
    ctx.MoveTo(BusX as real, BusTop as real);
    ctx.LineTo(BusX as real, (BusTop + 300) as real);
    assert ctx.path == [PathCmd.MoveTo(BusX as real, BusTop as real), PathCmd.LineTo(BusX as real, (BusTop + 300) as real)];
    ctx.Stroke();
    ghost var busOps := ctx.ops;
    assert busOps == old(ctx.ops) + CircuitOps(ctx.state, t)[..1];
    for idx := 0 to |Branches|
      invariant ctx.ops == busOps + BranchesOps(ctx.state, t, idx)
      invariant ctx.state == old(ctx.state).(lineWidth := 2.0) && ctx.stack == old(ctx.stack)
    {
      DrawBranch(ctx, t, Branches[idx], idx);
    }
    assert CircuitOps(ctx.state, t) == CircuitOps(ctx.state, t)[..1] + BranchesOps(ctx.state, t, |Branches|);
  }

  /** The `forEach` callback: branch `idx`, `dy` below the top of the bus, and its node. */
  method DrawBranch(ctx: Context2D, t: Trig, dy: nat, idx: nat)
    requires idx < |Branches| && dy == Branches[idx]
    modifies ctx
    ensures ctx.ops == old(ctx.ops) + BranchOps(ctx.state, t, idx)
    ensures ctx.state == old(ctx.state) && ctx.stack == old(ctx.stack)
  {
    var x, y := (BusX + 220 - idx * 30) as real, (BusTop + dy) as real;
    assert x == BranchEnd(idx) as real && y == BranchY(idx) as real;
    ctx.BeginPath();
    ctx.MoveTo(BusX as real, (BusTop + dy) as real);
    ctx.LineTo((BusX + 220 - idx * 30) as real, (BusTop + dy) as real);
    assert ctx.path == [PathCmd.MoveTo(BusX as real, y), PathCmd.LineTo(x, y)];
    ctx.Stroke();
    ctx.BeginPath();
    ctx.Arc((BusX + 220 - idx * 30) as real, (BusTop + dy) as real, NodeRadius, 0.0, t.pi * 2.0);
    assert ctx.path == [PathCmd.Arc(x, y, NodeRadius, 0.0, t.pi * 2.0)];
    ctx.Fill();
  }

  /** The overlay's state: the state it starts from at 0.18 opacity, stroking and filling in
      dark brown. */
  function OverlayState(s: DrawState): DrawState {
    s.(globalAlpha := 0.18, strokeStyle := Color(Brown), fillStyle := Color(Brown))
  }

  /** Everything the overlay draws, starting from state `s`. */
  function OverlayOps(s: DrawState, t: Trig): seq<Op> {
    WaveOps(OverlayState(s), t, 3) + CircuitOps(OverlayState(s).(lineWidth := 2.0), t)
  }

  /** Draws the overlay between `save` and `restore`: afterwards the drawing state and the
      state stack are what they were. */
  method DrawTechOverlay(ctx: Context2D, t: Trig)
    modifies ctx
    ensures ctx.state == old(ctx.state) && ctx.stack == old(ctx.stack)
    ensures ctx.ops == old(ctx.ops) + OverlayOps(old(ctx.state), t)
  {
    ctx.Save();
    ctx.SetGlobalAlpha(0.18);
    ctx.SetStrokeStyle(Color(Brown));
    ctx.SetFillStyle(Color(Brown));
    DrawWaves(ctx, t);
    DrawCircuit(ctx, t);
    ctx.Restore();
  }

  /** Every operation of the overlay is drawn at 0.18 opacity in dark brown, and otherwise
      under the state the overlay started from, apart from the line width. */
  lemma OverlayStates(s: DrawState, t: Trig)
    ensures |OverlayOps(s, t)| == 12
    ensures forall k :: 0 <= k < 12 ==>
      OpState(OverlayOps(s, t)[k]).(lineWidth := s.lineWidth) == OverlayState(s).(lineWidth := s.lineWidth)
  {
    var o := OverlayState(s);
    var c := o.(lineWidth := 2.0);
    forall k | 0 <= k < 12
      ensures OpState(OverlayOps(s, t)[k]).(lineWidth := s.lineWidth) == o.(lineWidth := s.lineWidth)
    {
      if k < 3 {
        WaveOpsAt(o, t, 3, k);
      } else if k > 3 {
        BranchesOpsAt(c, t, 4, (k - 4) / 2);
      }
    }
  }

  /** The state the banner's drawing starts from: a new context with the gradient as fill. */
  const GradientState := InitialState.(fillStyle := BannerGradient)

  /** Everything the banner draws, in order: gradient, overlay, title, subtitle. */
  function BannerOps(t: Trig): seq<Op> {
    [FillRect(0.0, 0.0, Width as real, Height as real, GradientState)]
      + OverlayOps(GradientState, t)
      + [FillText(Title, 80.0, 170.0, TitleState(GradientState)),
         FillText(Subtitle, 80.0, 280.0, SubtitleState(AfterTitle(GradientState)))]
  }

  /** Draws the banner on a new 1200 by 630 canvas. */
  method Generate(t: Trig, measure: (Font, string) -> real) returns (ctx: Context2D)
    ensures fresh(ctx) && ctx.width == Width && ctx.height == Height
    ensures ctx.ops == BannerOps(t)
    ensures ctx.stack == []
  {
    ctx := new Context2D(Width, Height, measure);
    DrawGradient(ctx);
    DrawTechOverlay(ctx, t);
    DrawTitle(ctx);
    DrawSubtitle(ctx);
  }

  /** The layers of the banner: the gradient covers the whole canvas first; the twelve
      overlay operations follow at 0.18 opacity; the title and the subtitle come last, both
      fully opaque, as the overlay's state does not outlive its `restore`. */
  lemma BannerLayers(t: Trig)
    ensures |BannerOps(t)| == 15
    ensures BannerOps(t)[0] == FillRect(0.0, 0.0, Width as real, Height as real, GradientState)
    ensures GradientState.fillStyle == BannerGradient
    ensures forall k :: 1 <= k < 13 ==> OpState(BannerOps(t)[k]).globalAlpha == 0.18
    ensures forall k :: 1 <= k < 13 ==> OpState(BannerOps(t)[k]).fillStyle == Color(Brown)
    ensures BannerOps(t)[13].FillText? && BannerOps(t)[13].text == Title
    ensures BannerOps(t)[14].FillText? && BannerOps(t)[14].text == Subtitle
    ensures OpState(BannerOps(t)[13]).globalAlpha == 1.0 && OpState(BannerOps(t)[14]).globalAlpha == 1.0
  {
    OverlayStates(GradientState, t);
    var ops := BannerOps(t);
    forall k | 1 <= k < 13
      ensures OpState(ops[k]).globalAlpha == 0.18 && OpState(ops[k]).fillStyle == Color(Brown)
    {
      assert ops[k] == OverlayOps(GradientState, t)[k - 1];
    }
  }

  /** Only the title casts a shadow: the subtitle is drawn with none. Both are drawn from
      x 80 with their tops as the reference, and the title's 90px line ends above the
      subtitle's top at 280. */
  lemma TextLayout(t: Trig)
    ensures var title := BannerOps(t)[13]; var sub := BannerOps(t)[14];
      title.FillText? && sub.FillText? &&
      !NoShadow(title.st.shadow) && NoShadow(sub.st.shadow) &&
      title.x == sub.x == 80.0 &&
      title.st.textBaseline == sub.st.textBaseline == Top &&
      title.st.textAlign == sub.st.textAlign == Left &&
      title.y + title.st.font.px as real <= sub.y
  {
    OverlayStates(GradientState, t);
  }
}

=== FILE: optimizer.dfy ===
/** The batch image optimizer: walk the public directory, keep the PNG and JPEG files,
    skip the variants an earlier run produced, and re-encode each remaining file as WebP
    plus a compressed copy in its own format. Every encoder call is an effect that may
    fail; `succeeds` says which calls complete. */
module Optimizer {
  import opened Paths

  datatype Option<T> = None | Some(value: T)

  /** One entry of `readdirSync(dir, { withFileTypes: true })`. Everything for which
      `isDirectory()` is false (a regular file, a symbolic link, ...) is a `Leaf`; a
      `Directory` carries its own listing. */
  datatype Entry = Leaf(name: string) | Directory(name: string, entries: seq<Entry>)

  /** Every name in the listing, at every depth, is one path segment. */
  predicate Named(entries: seq<Entry>)
    decreases entries
  {
    forall i :: 0 <= i < |entries| ==>
      PlainName(entries[i].name) && (entries[i].Directory? ==> Named(entries[i].entries))
  }

  /** Names within one directory are pairwise distinct, at every depth. */
  predicate Distinct(entries: seq<Entry>)
    decreases entries
  {
    (forall i, j :: 0 <= i < j < |entries| ==> entries[i].name != entries[j].name) &&
    forall i :: 0 <= i < |entries| ==> entries[i].Directory? ==> Distinct(entries[i].entries)
  }

  /** Number of non-directory entries in the tree. */
  function LeafCount(entries: seq<Entry>): nat
    decreases entries
  {
    if entries == [] then 0
    else
      var e := entries[|entries| - 1];
      LeafCount(entries[..|entries| - 1]) + (if e.Leaf? then 1 else LeafCount(e.entries))
  }

  /** The files below `dir`, by recursion over the tree: the paths of the entries in
      listing order, each directory replaced by the files below it. */
  function Flatten(dir: string, entries: seq<Entry>): seq<string>
    decreases entries
  {
    if entries == [] then []
    else
      var e := entries[|entries| - 1];
      var full := Join(dir, e.name);
      Flatten(dir, entries[..|entries| - 1]) +
      (if e.Leaf? then [full] else Flatten(full, e.entries))
  }

  /** The list that `walk` pushes paths into. */
  class FileList {
    var paths: seq<string>

    constructor ()
      ensures paths == []
    {
      paths := [];
    }

    method Push(p: string)
      modifies this
      ensures paths == old(paths) + [p]
    {
      paths := paths + [p];
    }
  }

  /** `walk(dir, list)`: visit the listing of `dir` in order, recurse into directories with
      the same list, push every other entry's path. */
  method Walk(dir: string, entries: seq<Entry>, list: FileList)
    modifies list
    ensures list.paths == old(list.paths) + Flatten(dir, entries)
    decreases entries
  {
    for i := 0 to |entries|
      invariant list.paths == old(list.paths) + Flatten(dir, entries[..i])
    {
      var entry := entries[i];
      var full := Join(dir, entry.name);
      ghost var before := list.paths;
      if entry.Directory? {
        Walk(full, entry.entries, list);
      } else {
        list.Push(full);
      }
      ghost var added := if entry.Leaf? then [full] else Flatten(full, entry.entries);
      assert list.paths == before + added;
      FlattenStep(dir, entries, i);
      AppendAssoc(old(list.paths), Flatten(dir, entries[..i]), added);
    }
    assert entries[..|entries|] == entries;
  }

  lemma AppendAssoc<T>(a: seq<T>, b: seq<T>, c: seq<T>)
    ensures (a + b) + c == a + (b + c)
  {
  }

  lemma NamedPrefix(entries: seq<Entry>, k: nat)
    requires Named(entries) && k <= |entries|
    ensures Named(entries[..k])
  {
    forall i | 0 <= i < k ensures entries[..k][i] == entries[i] { }
  }

  lemma DistinctPrefix(entries: seq<Entry>, k: nat)
    requires Distinct(entries) && k <= |entries|
    ensures Distinct(entries[..k])
  {
    forall i | 0 <= i < k ensures entries[..k][i] == entries[i] { }
  }

  /** The files an entry of the listing of `dir` contributes. */
  function EntryFiles(dir: string, e: Entry): seq<string> {
    if e.Leaf? then [Join(dir, e.name)] else Flatten(Join(dir, e.name), e.entries)
  }

  /** The files of a listing are those of all but its last entry, then the last entry's. */
  lemma FlattenLast(dir: string, s: seq<Entry>)
    requires s != []
    ensures Flatten(dir, s) == Flatten(dir, s[..|s| - 1]) + EntryFiles(dir, s[|s| - 1])
  {
  }

  /** One more entry of the listing adds its own files after those already seen. */
  lemma FlattenStep(dir: string, entries: seq<Entry>, i: nat)
    requires i < |entries|
    ensures var full := Join(dir, entries[i].name);
      Flatten(dir, entries[..i + 1]) == Flatten(dir, entries[..i]) +
        (if entries[i].Leaf? then [full] else Flatten(full, entries[i].entries))
  {
    assert entries[..i + 1][..i] == entries[..i];
  }

  /** `walk(root)` with a fresh list: the files of the tree, as `Flatten` orders them. */
  method WalkFrom(root: string, entries: seq<Entry>) returns (files: seq<string>)
    ensures files == Flatten(root, entries)
  {
    var list := new FileList();
    Walk(root, entries, list);
    files := list.paths;
  }

  /** `p` is `top` or lies below it. */
  predicate Below(p: string, top: string) {
    p == top || (|top| < |p| && p[..|top|] == top && p[|top|] == '/')
  }

  /** Each file of a listing lies below one of its entries, the one at index `i`. */
  lemma {:induction false} FlattenBelow(dir: string, entries: seq<Entry>, f: string) returns (i: int)
    requires Named(entries)
    requires f in Flatten(dir, entries)
    ensures 0 <= i < |entries| && Below(f, Join(dir, entries[i].name))
    decreases entries, 0
  {
    var n := |entries|;
    var e := entries[n - 1];
    var front := entries[..n - 1];
    if f in Flatten(dir, front) {
      NamedPrefix(entries, n - 1);
      i := FlattenBelow(dir, front, f);
      assert front[i] == entries[i];
    } else {
      i := n - 1;
      if e.Directory? {
        EntryBelow(dir, e, f);
      }
    }
  }

  /** The files of a directory entry lie below that entry's path. */
  lemma EntryBelow(dir: string, e: Entry, f: string)
    requires e.Directory? && PlainName(e.name) && Named(e.entries)
    requires f in Flatten(Join(dir, e.name), e.entries)
    ensures Below(f, Join(dir, e.name))
    decreases e.entries, 1
  {
    var full := Join(dir, e.name);
    var j := FlattenBelow(full, e.entries, f);
    BelowJoin(f, full, e.entries[j].name);
  }

  /** What lies below a child of `dir` lies below `dir` itself. */
  lemma BelowJoin(f: string, dir: string, name: string)
    requires dir != "/"
    requires Below(f, Join(dir, name))
    ensures Below(f, dir)
  {
    var p := Join(dir, name);
    assert p == dir + "/" + name;
    assert p[..|dir|] == dir;
    assert f[..|p|] == p ==> f[..|dir|] == p[..|dir|];
  }

  lemma SegmentsAgree(f: string, pre: string, a: string, b: string)
    requires '/' !in a && '/' !in b
    requires Below(f, pre + a) && Below(f, pre + b)
    ensures a == b
  {
    if |a| < |b| {
      assert false;
    } else if |b| < |a| {
      assert false;
    } else {
      assert a == (pre + a)[|pre|..] == f[|pre|..|pre| + |a|] == (pre + b)[|pre|..] == b;
    }
  }

  /** Below two siblings at once only when they are the same entry. */
  lemma BelowSiblings(f: string, dir: string, a: string, b: string)
    requires PlainName(a) && PlainName(b)
    requires Below(f, Join(dir, a)) && Below(f, Join(dir, b))
    ensures a == b
  {
    var pre := if dir == "/" then "/" else dir + "/";
    assert Join(dir, a) == pre + a;
    assert Join(dir, b) == pre + b;
    SegmentsAgree(f, pre, a, b);
  }

  predicate NoDuplicates(s: seq<string>) {
    forall i, j :: 0 <= i < j < |s| ==> s[i] != s[j]
  }

  lemma NoDuplicatesConcat(a: seq<string>, b: seq<string>)
    requires NoDuplicates(a) && NoDuplicates(b)
    requires forall x :: x in a ==> x !in b
    ensures NoDuplicates(a + b)
  {
    forall i, j | 0 <= i < j < |a + b| ensures (a + b)[i] != (a + b)[j] {
      if j < |a| {
        assert (a + b)[i] == a[i] && (a + b)[j] == a[j];
      } else if i >= |a| {
        assert (a + b)[i] == b[i - |a|] && (a + b)[j] == b[j - |a|];
      } else {
        assert (a + b)[i] == a[i] && (a + b)[j] == b[j - |a|];
        assert a[i] in a && b[j - |a|] in b;
      }
    }
  }

  /** The files of the earlier entries of a listing never lie below its last entry, when
      the names in the listing are distinct. */
  lemma EarlierNotBelowLast(dir: string, entries: seq<Entry>, f: string)
    requires Named(entries) && Distinct(entries) && entries != []
    requires f in Flatten(dir, entries[..|entries| - 1])
    ensures !Below(f, Join(dir, entries[|entries| - 1].name))
  {
    var k := EarlierEntry(dir, entries, f);
    SiblingNames(entries, k, |entries| - 1);
    NotBelowSibling(f, dir, entries[k].name, entries[|entries| - 1].name);
  }

  /** Two entries of one listing have different plain names. */
  lemma SiblingNames(entries: seq<Entry>, k: int, m: int)
    requires Named(entries) && Distinct(entries) && 0 <= k < m < |entries|
    ensures PlainName(entries[k].name) && PlainName(entries[m].name)
    ensures entries[k].name != entries[m].name
  {
  }

  /** A file of the earlier entries lies below one of them. */
  lemma EarlierEntry(dir: string, entries: seq<Entry>, f: string) returns (k: int)
    requires Named(entries) && entries != []
    requires f in Flatten(dir, entries[..|entries| - 1])
    ensures 0 <= k < |entries| - 1 && Below(f, Join(dir, entries[k].name))
  {
    var front := entries[..|entries| - 1];
    NamedPrefix(entries, |entries| - 1);
    k := FlattenBelow(dir, front, f);
    assert front[k] == entries[k];
  }

  /** Nothing lies below two sibling entries with different names. */
  lemma NotBelowSibling(f: string, dir: string, a: string, b: string)
    requires PlainName(a) && PlainName(b) && a != b
    requires Below(f, Join(dir, a))
    ensures !Below(f, Join(dir, b))
  {
    if Below(f, Join(dir, b)) {
      BelowSiblings(f, dir, a, b);
      assert false;
    }
  }

  /** `walk` returns every non-directory entry exactly once: one path per leaf, and no path
      twice when each directory's names are distinct. */
  lemma {:induction false} FlattenExactlyOnce(dir: string, entries: seq<Entry>)
    requires Named(entries) && Distinct(entries)
    ensures |Flatten(dir, entries)| == LeafCount(entries)
    ensures NoDuplicates(Flatten(dir, entries))
    decreases entries
  {
    if entries != [] {
      var n := |entries|;
      var e := entries[n - 1];
      var full := Join(dir, e.name);
      var front := entries[..n - 1];
      NamedPrefix(entries, n - 1);
      DistinctPrefix(entries, n - 1);
      FlattenExactlyOnce(dir, front);
      var head := Flatten(dir, front);
      var tail := if e.Leaf? then [full] else Flatten(full, e.entries);
      if e.Directory? {
        FlattenExactlyOnce(full, e.entries);
      }
      forall f | f in head ensures f !in tail {
        EarlierNotBelowLast(dir, entries, f);
        if e.Directory? && f in tail {
          EntryBelow(dir, e, f);
        }
      }
      NoDuplicatesConcat(head, tail);
    }
  }

  /** Listing order is kept: the files of a listing split anywhere are the files of the
      first part followed by those of the second. */
  lemma {:induction false} FlattenConcat(dir: string, a: seq<Entry>, b: seq<Entry>)
    ensures Flatten(dir, a + b) == Flatten(dir, a) + Flatten(dir, b)
    decreases |b|
  {
    if b == [] {
      assert a + b == a;
    } else {
      var n := |b|;
      var c := a + b;
      FlattenConcat(dir, a, b[..n - 1]);
      assert c[..|c| - 1] == a + b[..n - 1];
      FlattenLast(dir, c);
      FlattenLast(dir, b);
      AppendAssoc(Flatten(dir, a), Flatten(dir, b[..n - 1]), EntryFiles(dir, b[n - 1]));
    }
  }

  // ----- target selection -------------------------------------------------------------

  /** `SUPPORTED_INPUT`: the extensions the optimizer reads. */
  predicate SupportedInput(ext: string) {
    ext == ".png" || ext == ".jpg" || ext == ".jpeg"
  }

  /** The filter of `main`: the lower-cased `path.extname` is one of the supported inputs. */
  predicate IsTarget(f: string)
    requires NoTrailingSep(f)
  {
    SupportedInput(Lower(ExtName(f)))
  }

  /** The last segment ends, ignoring ASCII case, with `ext`, and something comes before it. */
  predicate HasExtension(c: string, ext: string) {
    |ext| < |c| && Lower(c[|c| - |ext|..]) == ext
  }

  lemma LowerDot(ch: char)
    ensures LowerChar(ch) == '.' <==> ch == '.'
  {
  }

  /** A supported extension, once lower-cased, has one dot, in front. */
  lemma LoweredExtensionShape(c: string, ext: string)
    requires SupportedInput(ext) && |ext| <= |c| && Lower(c[|c| - |ext|..]) == ext
    ensures c[|c| - |ext|] == '.'
    ensures forall k :: |c| - |ext| < k < |c| ==> c[k] != '.'
  {
    var tail := c[|c| - |ext|..];
    LowerAt(tail, 0);
    LowerDot(tail[0]);
    forall k | |c| - |ext| < k < |c| ensures c[k] != '.' {
      var j := k - (|c| - |ext|);
      assert c[k] == tail[j];
      LowerAt(tail, j);
      assert Lower(tail)[j] != '.';
      LowerDot(c[k]);
    }
  }

  /** A segment ends with its own `path.extname`, in any letter case. */
  /** A segment that ends with a supported extension has that tail as its `path.extname`. */
  lemma ExtensionOfSupported(c: string, ext: string)
    requires SupportedInput(ext) && HasExtension(c, ext)
    ensures SegmentExt(c) == c[|c| - |ext|..]
  {
    LoweredExtensionShape(c, ext);
    assert LastIndexOf(c, '.') == |c| - |ext|;
    assert c != "..";
  }

  lemma ExtensionMakesTarget(f: string, ext: string)
    requires NoTrailingSep(f)
    requires SupportedInput(ext) && HasExtension(Component(f), ext)
    ensures IsTarget(f)
  {
    ExtensionOfSupported(Component(f), ext);
  }

  /** A file without an extension is no target. */
  lemma NoExtensionNotSupported()
    ensures !SupportedInput(Lower(""))
  {
    assert Lower("") == "";
  }

  /** A segment ends with a supported extension when it ends with a longer-than-nothing
      suffix that lower-cases to one. */
  lemma SuffixWitness(c: string, e: string)
    requires |e| < |c| && EndsWith(c, e) && SupportedInput(Lower(e))
    ensures exists x :: SupportedInput(x) && HasExtension(c, x)
  {
    assert HasExtension(c, Lower(e));
  }

  lemma TargetShowsExtension(f: string)
    requires NoTrailingSep(f)
    ensures IsTarget(f) ==> exists ext :: SupportedInput(ext) && HasExtension(Component(f), ext)
  {
    if IsTarget(f) {
      var e := ExtName(f);
      NoExtensionNotSupported();
      SuffixWitness(Component(f), e);
    }
  }

  lemma ExtensionShowsTarget(f: string)
    requires NoTrailingSep(f)
    ensures (exists ext :: SupportedInput(ext) && HasExtension(Component(f), ext)) ==> IsTarget(f)
  {
    forall ext | SupportedInput(ext) && HasExtension(Component(f), ext) ensures IsTarget(f) {
      ExtensionMakesTarget(f, ext);
    }
  }

  /** Which files are targets, without `path.extname`: those whose name ends in ".png",
      ".jpg" or ".jpeg" in any letter case, after at least one other character. */
  lemma TargetByExtension(f: string)
    requires NoTrailingSep(f)
    ensures IsTarget(f) <==> exists ext :: SupportedInput(ext) && HasExtension(Component(f), ext)
  {
    TargetShowsExtension(f);
    ExtensionShowsTarget(f);
  }

  /** The skip test of `main`; it compares case-sensitively. */
  predicate IsMinified(f: string) {
    EndsWith(f, ".min.png") || EndsWith(f, ".min.jpg")
  }

  /** `files.filter(...)`: the targets among `files`, in the same order. */
  function Targets(files: seq<string>): (targets: seq<string>)
    requires forall f :: f in files ==> FilePath(f)
    ensures forall t :: t in targets ==> t in files && FilePath(t) && IsTarget(t)
    ensures forall f :: f in files && FilePath(f) && IsTarget(f) ==> f in targets
    ensures NoDuplicates(files) ==> NoDuplicates(targets)
  {
    if files == [] then []
    else
      var f := files[|files| - 1];
      assert f in files;
      assert FilePath(f);
      var front := files[..|files| - 1];
      LastSplit(files);
      var rest := Targets(front);
      if IsTarget(f) then
        NoDuplicatesSnoc(rest, f);
        rest + [f]
      else rest
  }

  /** A non-empty list is its front followed by its last element, which the front does not
      hold again when the list has no duplicates. */
  lemma LastSplit(s: seq<string>)
    requires s != []
    ensures s == s[..|s| - 1] + [s[|s| - 1]]
    ensures forall g :: g in s <==> g in s[..|s| - 1] || g == s[|s| - 1]
    ensures NoDuplicates(s) ==> NoDuplicates(s[..|s| - 1]) && s[|s| - 1] !in s[..|s| - 1]
  {
  }

  /** Appending an element the list does not hold keeps it duplicate-free. */
  lemma NoDuplicatesSnoc(s: seq<string>, x: string)
    ensures NoDuplicates(s) && x !in s ==> NoDuplicates(s + [x])
  {
    if NoDuplicates(s) && x !in s {
      NoDuplicatesConcat(s, [x]);
    }
  }

  /** The filter keeps the walk's order and multiplicity: filtering a list split anywhere is
      filtering the two parts and joining the results. */
  lemma {:induction false} TargetsConcat(a: seq<string>, b: seq<string>)
    requires forall f :: f in a + b ==> FilePath(f)
    ensures Targets(a + b) == Targets(a) + Targets(b)
    decreases |b|
  {
    if b == [] {
      assert a + b == a;
    } else {
      var front := b[..|b| - 1];
      assert (a + b)[..|a + b| - 1] == a + front;
      assert forall f :: f in a + front ==> f in a + b;
      TargetsConcat(a, front);
    }
  }

  /** A single file passes the filter exactly when it is a target. */
  lemma TargetsOne(f: string)
    requires FilePath(f)
    ensures Targets([f]) == if IsTarget(f) then [f] else []
  {
    assert [f][..0] == [];
  }

  // ----- one file ---------------------------------------------------------------------

  /** The encoders with the settings the script passes them. */
  datatype Format =
    | WebP(quality: nat)
    | Png(compressionLevel: nat)
    | Jpeg(quality: nat, mozjpeg: bool)

  /** One `image.<format>(...).toFile(target)` call. */
  datatype Job = Job(source: string, format: Format, target: string)

  /** What a run leaves behind, in order: written files and the per-file log line. */
  datatype Event =
    | Wrote(job: Job)
    | Optimized(source: string)
    | FailedOptimizing(source: string)

  /** `base` of `optimizeImage`: `path.basename` with the lower-cased extension, which
      strips the extension only when the name carries it in exactly that letter case. */
  function Stem(f: string): string
    requires FilePath(f)
  {
    BaseName(f, Lower(ExtName(f)))
  }

  /** `base` is never empty and holds no separator. */
  lemma StemShape(f: string)
    requires FilePath(f)
    ensures '/' !in Stem(f) && |Stem(f)| > 0
  {
    StemIsStrip(f);
    SplitJoin(f);
    var c := Component(f);
    var b := Stem(f);
    assert forall k :: 0 <= k < |b| ==> b[k] == c[k];
  }

  /** `path.basename(f, ext)` never meets its special case `ext == f` here. */
  lemma StemIsStrip(f: string)
    requires FilePath(f)
    ensures Stem(f) == StripSuffix(Component(f), Lower(ExtName(f)))
  {
    assert f[0] == '/';
    assert |Component(f)| < |f|;
  }

  /** `path.join(dir, base + suffix)` for an output next to `f`. */
  function Beside(f: string, suffix: string): (out: string)
    requires FilePath(f) && '/' !in suffix && |suffix| > 2
    ensures FilePath(out) && DirName(out) == DirName(f)
    ensures Component(out) == Stem(f) + suffix
  {
    SplitJoin(f);
    StemShape(f);
    var name := Stem(f) + suffix;
    assert '/' !in name by {
      forall k | 0 <= k < |name| ensures name[k] != '/' {
        if k < |Stem(f)| { assert name[k] == Stem(f)[k]; } else { assert name[k] == suffix[k - |Stem(f)|]; }
      }
    }
    JoinParts(DirName(f), name);
    Join(DirName(f), name)
  }

  /** The WebP copy every processed file gets. */
  function WebpJob(f: string): Job
    requires FilePath(f)
  {
    Job(f, WebP(82), Beside(f, ".webp"))
  }

  /** The format-preserving copy: `base.min.png` for a PNG, `base.min.jpg` for a JPEG. */
  function MinJob(f: string): (job: Option<Job>)
    requires FilePath(f)
    ensures job.Some? <==> IsTarget(f)
  {
    var ext := Lower(ExtName(f));
    if ext == ".png" then Some(Job(f, Png(9), Beside(f, ".min.png")))
    else if ext == ".jpg" || ext == ".jpeg" then Some(Job(f, Jpeg(82, true), Beside(f, ".min.jpg")))
    else None
  }

  /** The encoder calls `optimizeImage` makes when all of them succeed, in order. */
  function Jobs(f: string): seq<Job>
    requires FilePath(f)
  {
    [WebpJob(f)] + (if MinJob(f).Some? then [MinJob(f).value] else [])
  }

  /** The longest prefix of `jobs` whose calls all complete. */
  function Completed(jobs: seq<Job>, succeeds: Job -> bool): (done: seq<Job>)
    ensures |done| <= |jobs| && done == jobs[..|done|]
    ensures forall j :: j in done ==> succeeds(j)
    ensures |done| < |jobs| ==> !succeeds(jobs[|done|])
  {
    if jobs == [] || !succeeds(jobs[0]) then []
    else [jobs[0]] + Completed(jobs[1..], succeeds)
  }

  /** The files written, in order. */
  function Writes(events: seq<Event>): seq<Job> {
    if events == [] then []
    else (if events[0].Wrote? then [events[0].job] else []) + Writes(events[1..])
  }

  /** The files named by the per-file log lines, in order. */
  function Outcomes(events: seq<Event>): seq<string> {
    if events == [] then []
    else (if events[0].Wrote? then [] else [events[0].source]) + Outcomes(events[1..])
  }

  /** The `try` block of `optimizeImage`: the encoder calls in order; the first one that
      throws skips the rest, and `catch` logs the failure instead of raising it. */
  function Attempt(f: string, jobs: seq<Job>, succeeds: Job -> bool): (events: seq<Event>)
    ensures Writes(events) == Completed(jobs, succeeds)
    ensures Outcomes(events) == [f]
    ensures events[|events| - 1] ==
      if Completed(jobs, succeeds) == jobs then Optimized(f) else FailedOptimizing(f)
  {
    if jobs == [] then [Optimized(f)]
    else if !succeeds(jobs[0]) then [FailedOptimizing(f)]
    else
      var rest := Attempt(f, jobs[1..], succeeds);
      var events := [Wrote(jobs[0])] + rest;
      assert events[1..] == rest;
      assert Completed(jobs, succeeds) == [jobs[0]] + Completed(jobs[1..], succeeds);
      assert Completed(jobs, succeeds) == jobs <==> Completed(jobs[1..], succeeds) == jobs[1..] by {
        if Completed(jobs[1..], succeeds) == jobs[1..] { assert jobs == [jobs[0]] + jobs[1..]; }
      }
      events
  }

  /** `optimizeImage(f)`: write the WebP, then the format-preserving copy; an error ends
      the attempt and is caught and logged, never raised. */
  function OptimizeImage(f: string, succeeds: Job -> bool): (events: seq<Event>)
    requires FilePath(f)
    ensures Outcomes(events) == [f]
    ensures forall j :: j in Writes(events) ==> j in Jobs(f) && succeeds(j)
    ensures events[|events| - 1] == Optimized(f) <==> forall j :: j in Jobs(f) ==> succeeds(j)
    ensures events[|events| - 1] == Optimized(f) <==> Writes(events) == Jobs(f)
  {
    var jobs := Jobs(f);
    AttemptSucceeds(f, jobs, succeeds);
    Attempt(f, jobs, succeeds)
  }

  /** An attempt writes only jobs it was given, and logs success exactly when every one of
      them completes. */
  lemma AttemptSucceeds(f: string, jobs: seq<Job>, succeeds: Job -> bool)
    ensures var events := Attempt(f, jobs, succeeds);
      (forall j :: j in Writes(events) ==> j in jobs && succeeds(j)) &&
      (events[|events| - 1] == Optimized(f) <==> forall j :: j in jobs ==> succeeds(j)) &&
      (events[|events| - 1] == Optimized(f) <==> Writes(events) == jobs)
  {
    var done := Completed(jobs, succeeds);
    forall j | j in done ensures j in jobs {
      var k :| 0 <= k < |done| && done[k] == j;
      assert jobs[k] == j;
    }
    if done != jobs {
      assert !succeeds(jobs[|done|]);
    }
  }

  /** The extensions that occur here, one lemma each. */
  lemma PngExt()
    ensures SingleDotExt(".png") && Lower(".png") == ".png"
  {
    LowerEq(".png", ".png");
  }

  lemma JpgExt()
    ensures SingleDotExt(".jpg") && Lower(".jpg") == ".jpg"
  {
    LowerEq(".jpg", ".jpg");
  }

  lemma WebpExt()
    ensures SingleDotExt(".webp") && Lower(".webp") == ".webp" && !SupportedInput(".webp")
  {
    LowerEq(".webp", ".webp");
  }

  lemma UpperPngExt()
    ensures SingleDotExt(".PNG") && Lower(".PNG") == ".png"
  {
    LowerEq(".PNG", ".png");
  }

  // ----- output paths -----------------------------------------------------------------

  /** `job` reads `f` and writes a file path in the directory of `f`. */
  predicate NextTo(f: string, job: Job)
    requires FilePath(f)
  {
    job.source == f && FilePath(job.target) && DirName(job.target) == DirName(f)
  }

  /** A target gets the WebP copy and then exactly one format-preserving copy, both in the
      target's own directory: "<base>.min.png" for a PNG, "<base>.min.jpg" for a JPEG. */
  lemma TargetOutputs(f: string)
    requires FilePath(f) && IsTarget(f)
    ensures |Jobs(f)| == 2 && NextTo(f, Jobs(f)[0]) && NextTo(f, Jobs(f)[1])
    ensures Jobs(f)[0].format == WebP(82) && Component(Jobs(f)[0].target) == Stem(f) + ".webp"
    ensures Lower(ExtName(f)) == ".png" ==>
      Jobs(f)[1].format == Png(9) && Component(Jobs(f)[1].target) == Stem(f) + ".min.png"
    ensures Lower(ExtName(f)) == ".jpg" || Lower(ExtName(f)) == ".jpeg" ==>
      Jobs(f)[1].format == Jpeg(82, true) && Component(Jobs(f)[1].target) == Stem(f) + ".min.jpg"
  {
  }

  /** Where the WebP copy of `f` goes: the directory of `f`, named `base` + ".webp". */
  lemma WebpTarget(f: string, d: string, base: string)
    requires FilePath(f) && DirName(f) == d && Stem(f) == base
    ensures WebpJob(f).target == Join(d, base + ".webp")
  {
  }

  /** Where the PNG copy of a PNG `f` goes: the directory of `f`, named `base` + ".min.png". */
  lemma PngMinTarget(f: string, d: string, base: string)
    requires FilePath(f) && DirName(f) == d && Stem(f) == base && Lower(ExtName(f)) == ".png"
    ensures MinJob(f) == Some(Job(f, Png(9), Join(d, base + ".min.png")))
  {
  }

  /** Ending with a string that ends with `suffix` is ending with `suffix`. */
  lemma EndsWithTrans(p: string, c: string, suffix: string)
    requires EndsWith(p, c) && EndsWith(c, suffix)
    ensures EndsWith(p, suffix)
  {
    assert p[|p| - |suffix|..] == c[|c| - |suffix|..];
  }

  lemma EndsWithConcat(a: string, b: string)
    ensures EndsWith(a + b, b)
  {
    assert (a + b)[|a|..] == b;
  }

  /** A WebP copy is no target. */
  lemma WebpNotTarget(out: string, stem: string)
    requires NoTrailingSep(out) && |stem| > 0 && Component(out) == stem + ".webp"
    ensures !IsTarget(out)
  {
    WebpExt();
    SegmentExtOf(stem, ".webp");
  }

  /** A format-preserving copy is a target that carries the skip marker. */
  lemma MinCopySkipped(out: string, stem: string, suffix: string)
    requires NoTrailingSep(out) && |stem| > 0 && Component(out) == stem + suffix
    requires suffix == ".min.png" || suffix == ".min.jpg"
    ensures IsTarget(out) && IsMinified(out)
  {
    MinCopyTarget(out, stem, suffix);
    EndsWithConcat(stem, suffix);
    EndsWithTrans(out, Component(out), suffix);
  }

  lemma MinCopyTarget(out: string, stem: string, suffix: string)
    requires NoTrailingSep(out) && |stem| > 0 && Component(out) == stem + suffix
    requires suffix == ".min.png" || suffix == ".min.jpg"
    ensures IsTarget(out)
  {
    MinSuffixes();
    if suffix == ".min.png" {
      AppendAssoc(stem, ".min", ".png");
      ExtensionTarget(out, stem + ".min", ".png");
    } else {
      AppendAssoc(stem, ".min", ".jpg");
      ExtensionTarget(out, stem + ".min", ".jpg");
    }
  }

  /** The copy suffixes are the skip marker followed by an extension. */
  lemma MinSuffixes()
    ensures ".min.png" == ".min" + ".png" && ".min.jpg" == ".min" + ".jpg"
  {
  }

  /** A name ending in ".png" or ".jpg" after something else is a target. */
  lemma ExtensionTarget(out: string, base: string, e: string)
    requires NoTrailingSep(out) && |base| > 0 && Component(out) == base + e
    requires e == ".png" || e == ".jpg"
    ensures IsTarget(out)
  {
    ImageExtension(e);
    SegmentExtOf(base, e);
  }

  /** ".png" and ".jpg" are extensions the optimizer reads, as they are. */
  lemma ImageExtension(e: string)
    requires e == ".png" || e == ".jpg"
    ensures SingleDotExt(e) && SupportedInput(Lower(e))
  {
    if e == ".png" {
      PngExt();
    } else {
      JpgExt();
    }
  }

  /** The outputs of one run are not optimized again by the next: the WebP copy is no target,
      and the format-preserving copy, a target, carries the marker the loop skips. */
  lemma OutputsNotReprocessed(f: string)
    requires FilePath(f) && IsTarget(f)
    ensures !IsTarget(Jobs(f)[0].target)
    ensures IsTarget(Jobs(f)[1].target) && IsMinified(Jobs(f)[1].target)
  {
    TargetOutputs(f);
    StemShape(f);
    WebpNotTarget(Jobs(f)[0].target, Stem(f));
    if Lower(ExtName(f)) == ".png" {
      MinCopySkipped(Jobs(f)[1].target, Stem(f), ".min.png");
    } else {
      MinCopySkipped(Jobs(f)[1].target, Stem(f), ".min.jpg");
    }
  }

  /** The file `name` of the directory `d`, where `name` is a stem and an extension of one
      dot and at least one more character. */
  lemma JoinedName(d: string, stem: string, e: string)
    requires NormalAbs(d) && |stem| > 0 && '/' !in stem && SingleDotExt(e)
    ensures var f := Join(d, stem + e);
      FilePath(f) && DirName(f) == d && Component(f) == stem + e && ExtName(f) == e
  {
    var n := stem + e;
    assert '/' !in n by {
      forall k | 0 <= k < |n| ensures n[k] != '/' {
        if k < |stem| { assert n[k] == stem[k]; } else { assert n[k] == e[k - |stem|]; }
      }
    }
    JoinParts(d, n);
    SegmentExtOf(stem, e);
  }

  /** The WebP copy is named from the stem alone, so "a.png" and "a.jpg" in one directory
      both write "a.webp": the one optimized later overwrites the other's. */
  lemma SharedWebpOutput(d: string, stem: string)
    requires NormalAbs(d) && |stem| > 0 && '/' !in stem
    ensures FilePath(Join(d, stem + ".png")) && FilePath(Join(d, stem + ".jpg"))
    ensures WebpJob(Join(d, stem + ".png")).target == Join(d, stem + ".webp")
    ensures WebpJob(Join(d, stem + ".jpg")).target == Join(d, stem + ".webp")
  {
    PngExt();
    JpgExt();
    ExactCaseStem(d, stem, ".png");
    ExactCaseStem(d, stem, ".jpg");
  }

  /** With a lower-case extension, `base` is the name without it. */
  lemma ExactCaseStem(d: string, stem: string, e: string)
    requires NormalAbs(d) && |stem| > 0 && '/' !in stem && SingleDotExt(e) && Lower(e) == e
    ensures FilePath(Join(d, stem + e)) && Stem(Join(d, stem + e)) == stem
    ensures WebpJob(Join(d, stem + e)).target == Join(d, stem + ".webp")
  {
    var f := Join(d, stem + e);
    JoinedName(d, stem, e);
    StemIsStrip(f);
    assert (stem + e)[|stem + e| - |e|..] == e;
    assert Stem(f) + e == stem + e;
    assert Stem(f) == (stem + e)[..|stem|];
  }

  /** An upper-case ".PNG" extension selects the file as a PNG. */
  lemma UpperPng(f: string)
    requires NoTrailingSep(f) && ExtName(f) == ".PNG"
    ensures Lower(ExtName(f)) == ".png" && IsTarget(f)
  {
    UpperPngExt();
  }

  /** "<stem>.PNG" is selected, and its `base` keeps the extension. */
  lemma UpperStem(d: string, stem: string)
    requires NormalAbs(d) && |stem| > 0 && '/' !in stem
    ensures var f := Join(d, stem + ".PNG");
      FilePath(f) && DirName(f) == d && IsTarget(f) && Lower(ExtName(f)) == ".png" &&
      Stem(f) == stem + ".PNG"
  {
    var f := Join(d, stem + ".PNG");
    UpperPngExt();
    JoinedName(d, stem, ".PNG");
    UpperPng(f);
    StemIsStrip(f);
    var c := stem + ".PNG";
    assert c[|c| - 3] == 'P';
    assert !EndsWith(c, ".png");
  }

  /** An upper-case extension selects the file but is not stripped from `base`: "n.PNG"
      writes "n.PNG.webp" and "n.PNG.min.png". */
  lemma UpperExtensionKept(d: string, stem: string)
    requires NormalAbs(d) && |stem| > 0 && '/' !in stem
    ensures var f := Join(d, stem + ".PNG");
      FilePath(f) && IsTarget(f) &&
      WebpJob(f).target == Join(d, stem + ".PNG" + ".webp") &&
      MinJob(f) == Some(Job(f, Png(9), Join(d, stem + ".PNG" + ".min.png")))
  {
    UpperStem(d, stem);
    UpperWebp(d, stem);
    UpperMin(d, stem);
  }

  lemma UpperWebp(d: string, stem: string)
    requires NormalAbs(d) && |stem| > 0 && '/' !in stem
    ensures var f := Join(d, stem + ".PNG");
      FilePath(f) && WebpJob(f).target == Join(d, stem + ".PNG" + ".webp")
  {
    UpperStem(d, stem);
    WebpTarget(Join(d, stem + ".PNG"), d, stem + ".PNG");
  }

  lemma UpperMin(d: string, stem: string)
    requires NormalAbs(d) && |stem| > 0 && '/' !in stem
    ensures var f := Join(d, stem + ".PNG");
      FilePath(f) && MinJob(f) == Some(Job(f, Png(9), Join(d, stem + ".PNG" + ".min.png")))
  {
    UpperStem(d, stem);
    PngMinTarget(Join(d, stem + ".PNG"), d, stem + ".PNG");
  }

  lemma MarkedName(d: string, stem: string)
    requires NormalAbs(d) && |stem| > 0 && '/' !in stem
    ensures var f := Join(d, stem + ".MIN.PNG"); FilePath(f) && ExtName(f) == ".PNG"
  {
    assert stem + ".MIN.PNG" == (stem + ".MIN") + ".PNG";
    UpperPngExt();
    JoinedName(d, stem + ".MIN", ".PNG");
  }

  lemma MarkedNotMinified(d: string, stem: string)
    ensures !IsMinified(Join(d, stem + ".MIN.PNG"))
  {
    var f := Join(d, stem + ".MIN.PNG");
    assert f[|f| - 8..] == ".MIN.PNG";
    assert f[|f| - 7] == 'M' && f[|f| - 3] == 'P';
  }

  /** The skip test is case-sensitive: "n.MIN.PNG" is selected and not skipped. */
  lemma MinMarkerIsCaseSensitive(d: string, stem: string)
    requires NormalAbs(d) && |stem| > 0 && '/' !in stem
    ensures var f := Join(d, stem + ".MIN.PNG");
      FilePath(f) && IsTarget(f) && !IsMinified(f)
  {
    MarkedName(d, stem);
    UpperPng(Join(d, stem + ".MIN.PNG"));
    MarkedNotMinified(d, stem);
  }

  // ----- the batch ----------------------------------------------------------------------

  lemma {:induction false} WritesConcat(a: seq<Event>, b: seq<Event>)
    ensures Writes(a + b) == Writes(a) + Writes(b)
  {
    if a != [] {
      assert (a + b)[1..] == a[1..] + b;
      WritesConcat(a[1..], b);
    } else {
      assert a + b == b;
    }
  }

  lemma {:induction false} OutcomesConcat(a: seq<Event>, b: seq<Event>)
    ensures Outcomes(a + b) == Outcomes(a) + Outcomes(b)
  {
    if a != [] {
      assert (a + b)[1..] == a[1..] + b;
      OutcomesConcat(a[1..], b);
    } else {
      assert a + b == b;
    }
  }

  /** The files `main` hands to `optimizeImage`: the targets without the skipped ones. */
  function Processed(targets: seq<string>): (processed: seq<string>)
    ensures forall f :: f in processed <==> f in targets && !IsMinified(f)
    ensures NoDuplicates(targets) ==> NoDuplicates(processed)
  {
    if targets == [] then []
    else
      var f := targets[|targets| - 1];
      var rest := targets[..|targets| - 1];
      LastSplit(targets);
      if IsMinified(f) then Processed(rest)
      else
        NoDuplicatesSnoc(Processed(rest), f);
        Processed(rest) + [f]
  }

  /** The skip keeps the order and multiplicity of the targets: skipping over a list split
      anywhere is skipping over the two parts and joining the results. */
  lemma {:induction false} ProcessedConcat(a: seq<string>, b: seq<string>)
    ensures Processed(a + b) == Processed(a) + Processed(b)
    decreases |b|
  {
    if b == [] {
      assert a + b == a;
    } else {
      var front := b[..|b| - 1];
      assert (a + b)[..|a + b| - 1] == a + front;
      ProcessedConcat(a, front);
    }
  }

  /** A single target is handed on exactly when it is not a minified copy. */
  lemma ProcessedOne(f: string)
    ensures Processed([f]) == if IsMinified(f) then [] else [f]
  {
    assert [f][..0] == [];
  }

  /** The `for` loop of `main`: skip the minified targets, optimize the others in order. */
  function Batch(targets: seq<string>, succeeds: Job -> bool): seq<Event>
    requires forall t :: t in targets ==> FilePath(t)
  {
    if targets == [] then []
    else
      var f := targets[|targets| - 1];
      assert f in targets;
      var rest := targets[..|targets| - 1];
      assert forall t :: t in rest ==> t in targets;
      Batch(rest, succeeds) + (if IsMinified(f) then [] else OptimizeImage(f, succeeds))
  }

  /** A failure never stops the batch: whichever encoder calls fail, every file that is not
      skipped gets exactly one log line, in target order. */
  lemma {:induction false} BatchOutcomes(targets: seq<string>, succeeds: Job -> bool)
    requires forall t :: t in targets ==> FilePath(t)
    ensures Outcomes(Batch(targets, succeeds)) == Processed(targets)
  {
    if targets != [] {
      var f := targets[|targets| - 1];
      var rest := targets[..|targets| - 1];
      assert forall t :: t in rest ==> t in targets;
      BatchOutcomes(rest, succeeds);
      var last := if IsMinified(f) then [] else OptimizeImage(f, succeeds);
      OutcomesConcat(Batch(rest, succeeds), last);
    }
  }

  /** The files one `optimizeImage` call writes are outputs of that file whose encoder
      calls completed. */
  lemma AttemptWrites(f: string, succeeds: Job -> bool)
    requires FilePath(f)
    ensures forall j :: j in Writes(OptimizeImage(f, succeeds)) ==>
      succeeds(j) && j.source == f && j in Jobs(f)
  {
    CompletedWithin(Jobs(f), succeeds);
    JobsSource(f);
  }

  /** Completed calls are calls of the list. */
  lemma CompletedWithin(jobs: seq<Job>, succeeds: Job -> bool)
    ensures forall j :: j in Completed(jobs, succeeds) ==> j in jobs
  {
    var done := Completed(jobs, succeeds);
    forall j | j in done ensures j in jobs {
      PrefixMember(jobs, |done|, j);
    }
  }

  lemma PrefixMember<T>(s: seq<T>, n: nat, x: T)
    requires n <= |s| && x in s[..n]
    ensures x in s
  {
    assert s == s[..n] + s[n..];
  }

  /** Every call `optimizeImage(f)` makes reads `f`. */
  lemma JobsSource(f: string)
    requires FilePath(f)
    ensures forall j :: j in Jobs(f) ==> j.source == f
  {
    SameSource(WebpJob(f), MinJob(f), f);
  }

  lemma SameSource(w: Job, m: Option<Job>, f: string)
    requires w.source == f && (m.Some? ==> m.value.source == f)
    ensures forall j :: j in [w] + (if m.Some? then [m.value] else []) ==> j.source == f
  {
  }

  /** Only encoder calls that complete write files, and only for files the loop processes. */
  lemma {:induction false} BatchWrites(targets: seq<string>, succeeds: Job -> bool)
    requires forall t :: t in targets ==> FilePath(t)
    ensures forall j :: j in Writes(Batch(targets, succeeds)) ==>
      succeeds(j) && j.source in Processed(targets) && FilePath(j.source) && j in Jobs(j.source)
  {
    if targets != [] {
      var f := targets[|targets| - 1];
      var rest := targets[..|targets| - 1];
      assert forall t :: t in rest ==> t in targets;
      BatchWrites(rest, succeeds);
      var last := if IsMinified(f) then [] else OptimizeImage(f, succeeds);
      WritesConcat(Batch(rest, succeeds), last);
      if !IsMinified(f) {
        AttemptWrites(f, succeeds);
      }
      forall j | j in Writes(Batch(targets, succeeds))
        ensures succeeds(j) && j.source in Processed(targets) && FilePath(j.source) && j in Jobs(j.source)
      {
        if j !in Writes(Batch(rest, succeeds)) {
          assert j in Writes(last);
        }
      }
    }
  }

  lemma BatchStep(targets: seq<string>, i: nat, succeeds: Job -> bool)
    requires forall t :: t in targets ==> FilePath(t)
    requires i < |targets|
    ensures forall t :: t in targets[..i] ==> FilePath(t)
    ensures forall t :: t in targets[..i + 1] ==> FilePath(t)
    ensures Batch(targets[..i + 1], succeeds) == Batch(targets[..i], succeeds) +
      (if IsMinified(targets[i]) then [] else OptimizeImage(targets[i], succeeds))
  {
    assert targets[..i + 1][..i] == targets[..i];
    assert targets[i] in targets;
  }

  /** Every file `walk` returns below a normalized directory is a file path. */
  lemma {:induction false} FlattenFilePaths(dir: string, entries: seq<Entry>)
    requires NormalAbs(dir) && Named(entries)
    ensures forall f :: f in Flatten(dir, entries) ==> FilePath(f)
    decreases entries, 0
  {
    if entries != [] {
      var n := |entries|;
      var e := entries[n - 1];
      FlattenLast(dir, entries);
      NamedPrefix(entries, n - 1);
      FlattenFilePaths(dir, entries[..n - 1]);
      JoinParts(dir, e.name);
      if e.Directory? {
        DirectoryFilePaths(dir, e);
      }
      AllFilePaths(Flatten(dir, entries[..n - 1]), EntryFiles(dir, e));
    }
  }

  /** The files below a directory entry are file paths. */
  lemma DirectoryFilePaths(dir: string, e: Entry)
    requires NormalAbs(dir) && e.Directory? && PlainName(e.name) && Named(e.entries)
    ensures forall f :: f in EntryFiles(dir, e) ==> FilePath(f)
    decreases e.entries, 1
  {
    JoinParts(dir, e.name);
    FlattenFilePaths(Join(dir, e.name), e.entries);
  }

  lemma AllFilePaths(a: seq<string>, b: seq<string>)
    requires forall f :: f in a ==> FilePath(f)
    requires forall f :: f in b ==> FilePath(f)
    ensures forall f :: f in a + b ==> FilePath(f)
  {
  }

  /** The targets `main` selects under the public directory. */
  function Selected(publicDir: string, entries: seq<Entry>): (targets: seq<string>)
    requires NormalAbs(publicDir) && Named(entries)
    ensures forall t :: t in targets ==> FilePath(t) && IsTarget(t)
    ensures forall f :: f in Flatten(publicDir, entries) ==> FilePath(f) && (IsTarget(f) ==> f in targets)
    ensures forall t :: t in targets ==> t in Flatten(publicDir, entries)
    ensures Distinct(entries) ==> NoDuplicates(targets)
  {
    FlattenFilePaths(publicDir, entries);
    assert Distinct(entries) ==> NoDuplicates(Flatten(publicDir, entries)) by {
      if Distinct(entries) { FlattenExactlyOnce(publicDir, entries); }
    }
    Targets(Flatten(publicDir, entries))
  }

  /** Every eligible file is visited exactly once per run: when each directory's names are
      distinct, the batch logs one outcome per walked target that is not a minified copy, and
      no file twice. */
  lemma VisitedOnce(publicDir: string, entries: seq<Entry>, succeeds: Job -> bool)
    requires NormalAbs(publicDir) && Named(entries) && Distinct(entries)
    ensures var outcomes := Outcomes(Batch(Selected(publicDir, entries), succeeds));
      NoDuplicates(outcomes) &&
      forall f :: f in outcomes <==> f in Flatten(publicDir, entries) && IsTarget(f) && !IsMinified(f)
  {
    var targets := Selected(publicDir, entries);
    BatchOutcomes(targets, succeeds);
  }

  /** How a run of the optimizer ends. */
  datatype Run =
    | PublicDirNotFound
    | NothingToOptimize
    | Finished(events: seq<Event>)

  /** The loop of `main`: skip the files an earlier run produced, optimize the others one
      after the other. */
  method OptimizeAll(targets: seq<string>, succeeds: Job -> bool) returns (events: seq<Event>)
    requires forall t :: t in targets ==> FilePath(t)
    ensures events == Batch(targets, succeeds)
  {
    events := [];
    for i := 0 to |targets|
      invariant forall t :: t in targets[..i] ==> FilePath(t)
      invariant events == Batch(targets[..i], succeeds)
    {
      var f := targets[i];
      BatchStep(targets, i, succeeds);
      if IsMinified(f) {
        continue;
      }
      events := events + OptimizeImage(f, succeeds);
    }
    assert targets[..|targets|] == targets;
  }

  /** `main`: `listing` is the tree under the public directory, or `None` when the directory
      does not exist. */
  method RunOptimizer(publicDir: string, listing: Option<seq<Entry>>, succeeds: Job -> bool) returns (run: Run)
    requires NormalAbs(publicDir) && (listing.Some? ==> Named(listing.value))
    ensures listing.None? ==> run == PublicDirNotFound
    ensures listing.Some? ==>
      var targets := Selected(publicDir, listing.value);
      run == if targets == [] then NothingToOptimize else Finished(Batch(targets, succeeds))
  {
    if listing.None? {
      return PublicDirNotFound;
    }
    var files := WalkFrom(publicDir, listing.value);
    FlattenFilePaths(publicDir, listing.value);
    var targets := Targets(files);
    if |targets| == 0 {
      return NothingToOptimize;
    }
    var events := OptimizeAll(targets, succeeds);
    return Finished(events);
  }
}

=== FILE: paths.dfy ===
/** Node's POSIX `path` functions, as the image optimizer uses them.

    A path is a string of segments separated by '/'. The optimizer only ever builds paths
    with `path.join(dir, name)` from a normalized absolute directory and the name of a
    directory entry, and `JoinParts` states what `Join` gives for those arguments. The query
    functions (`DirName`, `Component`, `ExtName`, `BaseName`) follow Node on such paths
    (`FilePath`, below a `NormalAbs` directory); on other inputs, such as a path that starts
    with "//", Node's `dirname` may keep separators that `DirName` drops. */
module Paths {

  /** Index of the last occurrence of `ch` in `s`, or -1 when `ch` does not occur. */
  function LastIndexOf(s: string, ch: char): (i: int)
    ensures -1 <= i < |s|
    ensures i >= 0 ==> s[i] == ch
    ensures forall k :: i < k < |s| ==> s[k] != ch
  {
    if |s| == 0 then -1
    else if s[|s| - 1] == ch then |s| - 1
    else LastIndexOf(s[..|s| - 1], ch)
  }

  predicate EndsWith(s: string, suffix: string) {
    |suffix| <= |s| && s[|s| - |suffix|..] == suffix
  }

  predicate NoTrailingSep(p: string) {
    |p| == 0 || p[|p| - 1] != '/'
  }

  /** A directory-entry name: what `readdir` can return and `path.join` keeps as one segment. */
  predicate PlainName(n: string) {
    |n| > 0 && '/' !in n && n != "." && n != ".."
  }

  /** The segment that starts at `j` is "." or "..". */
  predicate DotSegmentAt(p: string, j: int) {
    0 <= j < |p| && p[j] == '.' &&
    (j + 1 == |p| || p[j + 1] == '/' || (p[j + 1] == '.' && (j + 2 == |p| || p[j + 2] == '/')))
  }

  /** The '/' at `i` starts an empty, "." or ".." segment. */
  predicate BadSegmentAt(p: string, i: int) {
    0 <= i < |p| - 1 && p[i] == '/' && (p[i + 1] == '/' || DotSegmentAt(p, i + 1))
  }

  /** A normalized absolute path: the root "/", or plain names each after one '/' (what
      `path.resolve` and `path.join` produce): no empty segment, no "." or ".." segment,
      no trailing '/'. */
  predicate NormalAbs(p: string) {
    |p| > 0 && p[0] == '/' && (p == "/" || p[|p| - 1] != '/') &&
    forall i :: 0 <= i < |p| ==> !BadSegmentAt(p, i)
  }

  /** A path that names an entry below some directory, such as every path `walk` returns. */
  predicate FilePath(p: string) {
    NormalAbs(p) && p != "/"
  }

  /** The last segment of `p`: `path.basename(p)` for a path without a trailing '/'.
      It is the longest suffix of `p` that holds no separator. */
  function Component(p: string): (c: string)
    ensures '/' !in c
    ensures |c| <= |p| && p[|p| - |c|..] == c
    ensures |c| < |p| ==> p[|p| - |c| - 1] == '/'
  {
    p[LastIndexOf(p, '/') + 1..]
  }

  /** `path.dirname(p)` for a path without a trailing '/'. */
  function DirName(p: string): (d: string)
    requires NoTrailingSep(p)
    ensures '/' !in p ==> d == "."
    ensures '/' in p ==> |d| < |p| && (d == "/" || p == d + "/" + Component(p))
  {
    var i := LastIndexOf(p, '/');
    if i < 0 then "." else if i == 0 then "/" else p[..i]
  }

  /** The extension of one path segment, by the rule of `path.extname`: the segment from
      its last '.' on, unless that dot is the segment's first character or the segment is "..". */
  function SegmentExt(c: string): (e: string)
    ensures e == "" || (e[0] == '.' && |e| < |c| && EndsWith(c, e))
    ensures forall k :: 1 <= k < |e| ==> e[k] != '.'
    ensures '.' !in c ==> e == ""
  {
    var d := LastIndexOf(c, '.');
    if d <= 0 || c == ".." then ""
    else
      var e := c[d..];
      assert forall k :: 1 <= k < |e| ==> e[k] == c[d + k];
      e
  }

  /** An extension of one dot and at least one more character, none of them a separator. */
  predicate SingleDotExt(e: string) {
    |e| >= 2 && e[0] == '.' && forall k :: 1 <= k < |e| ==> e[k] != '.' && e[k] != '/'
  }

  /** A segment made of a non-empty stem and a single-dot extension has that extension,
      whatever dots the stem holds. */
  lemma SegmentExtOf(s: string, e: string)
    requires |s| > 0 && SingleDotExt(e)
    ensures SegmentExt(s + e) == e
  {
    var c := s + e;
    forall k | |s| < k < |c| ensures c[k] != '.' {
      assert c[k] == e[k - |s|];
    }
    LastAt(c, '.', |s|);
    assert c[|s|..] == e;
  }

  /** `path.extname(p)` for a path without a trailing '/'. */
  function ExtName(p: string): string
    requires NoTrailingSep(p)
  {
    SegmentExt(Component(p))
  }

  /** One segment with `suffix` removed, by the rule of `path.basename(p, suffix)`: only when
      the segment ends with `suffix` exactly (the comparison is case-sensitive) and something
      is left before it. */
  function StripSuffix(c: string, suffix: string): (b: string)
    ensures if 0 < |suffix| < |c| && EndsWith(c, suffix) then c == b + suffix else b == c
  {
    if 0 < |suffix| < |c| && c[|c| - |suffix|..] == suffix then c[..|c| - |suffix|] else c
  }

  /** `path.basename(p, suffix)` for a path without a trailing '/'. */
  function BaseName(p: string, suffix: string): string
    requires NoTrailingSep(p)
  {
    if |suffix| > 0 && suffix == p then "" else StripSuffix(Component(p), suffix)
  }

  /** `path.join(d, n)` for a normalized absolute directory `d` and a plain name `n` (the
      only arguments it is given here; see `JoinParts`). */
  function Join(d: string, n: string): string {
    if d == "/" then "/" + n else d + "/" + n
  }

  /** The last `ch` of `p` is the one at `i` when none follows it. */
  lemma LastAt(p: string, ch: char, i: int)
    requires 0 <= i < |p| && p[i] == ch
    requires forall k :: i < k < |p| ==> p[k] != ch
    ensures LastIndexOf(p, ch) == i
  {
  }

  /** The separator `Join` puts in is the path's last one. */
  lemma JoinSlash(d: string, n: string)
    requires PlainName(n)
    ensures var p := Join(d, n); var i := |p| - |n| - 1;
      0 <= i && LastIndexOf(p, '/') == i && p[i + 1..] == n && p[..i] == (if d == "/" then "" else d)
  {
    var p := Join(d, n);
    var i := |p| - |n| - 1;
    assert forall k :: i < k < |p| ==> p[k] == n[k - i - 1];
    LastAt(p, '/', i);
  }

  /** Whether a segment is bad depends only on the segment: extending a path past a
      '/' does not change it for the segments before. */
  lemma BadSegmentPrefix(d: string, p: string, k: int)
    requires 0 <= k < |d| < |p| && p[..|d|] == d && p[|d|] == '/' && d[|d| - 1] != '/'
    ensures BadSegmentAt(p, k) == BadSegmentAt(d, k)
  {
    assert p[k] == d[k];
    if k + 1 < |d| {
      assert p[k + 1] == d[k + 1];
    }
  }

  /** The last segment of a path is "." or ".." exactly when that segment is. */
  lemma DotSegmentLast(p: string, i: int)
    requires 0 <= i < |p| && '/' !in p[i + 1..]
    ensures DotSegmentAt(p, i + 1) <==> p[i + 1..] == "." || p[i + 1..] == ".."
  {
    var c := p[i + 1..];
    if DotSegmentAt(p, i + 1) && i + 2 < |p| {
      assert c[1] == p[i + 2];
    }
  }

  /** Joining a plain name to a normalized absolute directory gives a file path. */
  lemma JoinNormal(d: string, n: string)
    requires NormalAbs(d) && PlainName(n)
    ensures FilePath(Join(d, n))
  {
    var p := Join(d, n);
    var i := |p| - |n| - 1;
    JoinSlash(d, n);
    assert p[|p| - 1] == n[|n| - 1];
    forall k | 0 <= k < |p| ensures !BadSegmentAt(p, k) {
      if k < i {
        assert !BadSegmentAt(d, k);
        BadSegmentPrefix(d, p, k);
      } else if k == i {
        assert p[k + 1] == n[0];
        DotSegmentLast(p, i);
      } else {
        assert p[k] == n[k - i - 1];
      }
    }
  }

  /** A joined path is a file path whose last segment is the name and whose directory is
      the directory it was joined to. */
  lemma JoinParts(d: string, n: string)
    requires NormalAbs(d) && PlainName(n)
    ensures FilePath(Join(d, n))
    ensures Component(Join(d, n)) == n && DirName(Join(d, n)) == d
  {
    JoinNormal(d, n);
    JoinSlash(d, n);
  }

  /** Splitting a file path into its directory and its last segment, then joining them,
      gives the path back. */
  lemma SplitJoin(p: string)
    requires FilePath(p)
    ensures NormalAbs(DirName(p)) && PlainName(Component(p))
    ensures Join(DirName(p), Component(p)) == p
  {
    var i := LastIndexOf(p, '/');
    var c := p[i + 1..];
    assert i >= 0 && i < |p| - 1;
    assert !BadSegmentAt(p, i);
    DotSegmentLast(p, i);
    assert PlainName(c);
    if i > 0 {
      var d := p[..i];
      assert d[|d| - 1] != '/' by {
        assert !BadSegmentAt(p, i - 1);
      }
      forall k | 0 <= k < |d| ensures !BadSegmentAt(d, k) {
        assert !BadSegmentAt(p, k);
        BadSegmentPrefix(d, p, k);
      }
      assert p == d + "/" + c;
    } else {
      assert p == "/" + c;
    }
  }

  function LowerChar(ch: char): char {
    if 'A' <= ch <= 'Z' then (ch as int + 32) as char else ch
  }

  /** `String.prototype.toLowerCase` on ASCII letters; other characters are kept. */
  function Lower(s: string): (r: string)
    ensures |r| == |s|
  {
    if s == [] then [] else [LowerChar(s[0])] + Lower(s[1..])
  }

  /** Lower-casing is fixed by its effect on each character. */
  lemma {:induction false} LowerEq(s: string, t: string)
    requires |s| == |t| && forall i :: 0 <= i < |s| ==> LowerChar(s[i]) == t[i]
    ensures Lower(s) == t
  {
    if s != [] {
      LowerEq(s[1..], t[1..]);
      assert t == [t[0]] + t[1..];
    }
  }

  /** Lower-casing works character by character. */
  lemma {:induction false} LowerAt(s: string, i: int)
    requires 0 <= i < |s|
    ensures Lower(s)[i] == LowerChar(s[i])
  {
    if i > 0 {
      LowerAt(s[1..], i - 1);
    }
  }
}

=== FILE: sizing.dfy ===
/** The logo's sizing formulas. Both logo scripts compute, from the canvas size `s`, a hexagon
    radius `Math.floor(s * 0.33)`, a stroke width `Math.max(2, Math.floor(s * 0.018))`, a font
    size `Math.floor(s * 0.28)`, and the canvas variant a text drop `Math.floor(s * 0.01)`.
    The model states them as integer formulas and shows that, for the sizes the scripts
    render, they agree with the JavaScript computation in binary64 doubles. */
module LogoSizing {
  import opened Float64

  /** The sizes the logo is rendered at: the logo, the touch icon and the favicon. */
  const LogoSizes: seq<nat> := [500, 180, 32]

  /** The hexagon radius: the exact `s * 0.33`, rounded down. */
  function HexRadius(s: nat): (r: nat)
    ensures 100 * r <= 33 * s < 100 * (r + 1)
  {
    s * 33 / 100
  }

  /** The stroke width: the exact `s * 0.018` rounded down, but never below 2. */
  function StrokeWidth(s: nat): (w: nat)
    ensures 18 * s < 2000 ==> w == 2
    ensures 18 * s >= 2000 ==> 1000 * w <= 18 * s < 1000 * (w + 1)
  {
    var w := s * 18 / 1000;
    if w < 2 then 2 else w
  }

  /** The font size: the exact `s * 0.28`, rounded down. */
  function FontSize(s: nat): (f: nat)
    ensures 100 * f <= 28 * s < 100 * (f + 1)
  {
    s * 28 / 100
  }

  /** The text drop: the exact `s * 0.01`, rounded down. */
  function TextDrop(s: nat): (d: nat)
    ensures 100 * d <= s < 100 * (d + 1)
  {
    s / 100
  }

  lemma DivMono(a: nat, b: nat, d: nat)
    requires a <= b && d > 0
    ensures a / d <= b / d
  {
    assert (a / d) * d <= a;
    DivLower(b, d, a / d);
  }

  /** The stroke is never thinner than 2 and never thins as the size grows. */
  lemma StrokeWidthBounds(a: nat, b: nat)
    requires a <= b
    ensures 2 <= StrokeWidth(a) <= StrokeWidth(b)
  {
    DivMono(a * 18, b * 18, 1000);
  }

  /** The hexagon fits on the canvas: its diameter is at most the size. */
  lemma RadiusFits(s: nat)
    ensures 2 * HexRadius(s) <= s
  {
    var r := HexRadius(s);
    assert r * 100 <= s * 33;
    MulLess(2 * r, s + 1, 100);
  }

  /** The initials are set no larger than the hexagon's radius. */
  lemma FontWithinRadius(s: nat)
    ensures FontSize(s) <= HexRadius(s)
  {
    DivMono(s * 28, s * 33, 100);
  }

  /** The decimal literals of the formulas, as JavaScript reads them. */
  const Point33 := Double(5944751508129055, -54)
  const Point018 := Double(5188146770730811, -58)
  const Point28 := Double(5044031582654956, -54)
  const Point01 := Double(5764607523034235, -59)

  /** Each constant is the double nearest to its decimal literal. */
  lemma Literals()
    ensures IsLiteral(Point33, 33, 100) && IsLiteral(Point018, 18, 1000)
    ensures IsLiteral(Point28, 28, 100) && IsLiteral(Point01, 1, 100)
  {
    Pow2Values();
    Literal33();
    Literal018();
    Literal28();
    Literal01();
  }

  lemma Literal33()
    ensures IsLiteral(Point33, 33, 100)
  {
    Pow2Values();
  }

  lemma Literal018()
    ensures IsLiteral(Point018, 18, 1000)
  {
    Pow2Values();
  }

  lemma Literal28()
    ensures IsLiteral(Point28, 28, 100)
  {
    Pow2Values();
  }

  lemma Literal01()
    ensures IsLiteral(Point01, 1, 100)
  {
    Pow2Values();
  }

  lemma Radius500()
    ensures FloorTimes(500, Point33) == 165
  {
    Pow2Values();
    FromNatIs(500, 44);
    MulIs(Double(8796093022208000, -44), Point33, 53, 5805421394657280);
    FloorIs(Double(5805421394657280, -45), 165);
  }

  lemma Stroke500()
    ensures FloorTimes(500, Point018) == 9
  {
    Pow2Values();
    FromNatIs(500, 44);
    MulIs(Double(8796093022208000, -44), Point018, 53, 5066549580791808);
    FloorIs(Double(5066549580791808, -49), 9);
  }

  lemma Font500()
    ensures FloorTimes(500, Point28) == 140
  {
    Pow2Values();
    FromNatIs(500, 44);
    MulIs(Double(8796093022208000, -44), Point28, 53, 4925812092436480);
    FloorIs(Double(4925812092436480, -45), 140);
  }

  lemma Drop500()
    ensures FloorTimes(500, Point01) == 5
  {
    Pow2Values();
    FromNatIs(500, 44);
    MulIs(Double(8796093022208000, -44), Point01, 53, 5629499534213120);
    FloorIs(Double(5629499534213120, -50), 5);
  }

  /** Size 500 in doubles: radius 165, stroke 9, font 140, drop 5. */
  lemma Doubles500()
    ensures FloatAgrees(500)
  {
    SizingAtLogoSizes();
    Radius500();
    Stroke500();
    Font500();
    Drop500();
  }

  lemma Radius180()
    ensures FloorTimes(180, Point33) == 59
  {
    Pow2Values();
    FromNatIs(180, 45);
    MulIs(Double(6333186975989760, -45), Point33, 52, 8359806808306484);
    FloorIs(Double(8359806808306484, -47), 59);
  }

  lemma Stroke180()
    ensures FloorTimes(180, Point018) == 3
  {
    Pow2Values();
    FromNatIs(180, 45);
    MulIs(Double(6333186975989760, -45), Point018, 52, 7295831396340203);
    FloorIs(Double(7295831396340203, -51), 3);
  }

  lemma Font180()
    ensures FloorTimes(180, Point28) == 50
  {
    Pow2Values();
    FromNatIs(180, 45);
    MulIs(Double(6333186975989760, -45), Point28, 52, 7093169413108532);
    FloorIs(Double(7093169413108532, -47), 50);
  }

  lemma Drop180()
    ensures FloorTimes(180, Point01) == 1
  {
    Pow2Values();
    FromNatIs(180, 45);
    MulIs(Double(6333186975989760, -45), Point01, 52, 8106479329266893);
    FloorIs(Double(8106479329266893, -52), 1);
  }

  /** Size 180 in doubles: radius 59, stroke 3, font 50, drop 1. */
  lemma Doubles180()
    ensures FloatAgrees(180)
  {
    SizingAtLogoSizes();
    Radius180();
    Stroke180();
    Font180();
    Drop180();
  }

  lemma Radius32()
    ensures FloorTimes(32, Point33) == 10
  {
    Pow2Values();
    FromNatIs(32, 47);
    MulIs(Double(4503599627370496, -47), Point33, 52, 5944751508129055);
    FloorIs(Double(5944751508129055, -49), 10);
  }

  lemma Stroke32()
    ensures FloorTimes(32, Point018) == 0
  {
    Pow2Values();
    FromNatIs(32, 47);
    MulIs(Double(4503599627370496, -47), Point018, 52, 5188146770730811);
    FloorIs(Double(5188146770730811, -53), 0);
  }

  lemma Font32()
    ensures FloorTimes(32, Point28) == 8
  {
    Pow2Values();
    FromNatIs(32, 47);
    MulIs(Double(4503599627370496, -47), Point28, 52, 5044031582654956);
    FloorIs(Double(5044031582654956, -49), 8);
  }

  lemma Drop32()
    ensures FloorTimes(32, Point01) == 0
  {
    Pow2Values();
    FromNatIs(32, 47);
    MulIs(Double(4503599627370496, -47), Point01, 52, 5764607523034235);
    FloorIs(Double(5764607523034235, -54), 0);
  }

  /** Size 32 in doubles: radius 10, stroke below 2 before the `max`, font 8, drop 0. */
  lemma Doubles32()
    ensures FloatAgrees(32)
  {
    SizingAtLogoSizes();
    Radius32();
    Stroke32();
    Font32();
    Drop32();
  }

  /** JavaScript's `Math.max(2, w)` for a stroke width. */
  function AtLeastTwo(w: int): int {
    if w < 2 then 2 else w
  }

  /** At size `s` the integer formulas give what the script computes in doubles. */
  predicate FloatAgrees(s: nat) {
    0 < s < MaxSig &&
    HexRadius(s) == FloorTimes(s, Point33) &&
    StrokeWidth(s) == AtLeastTwo(FloorTimes(s, Point018)) &&
    FontSize(s) == FloorTimes(s, Point28) &&
    TextDrop(s) == FloorTimes(s, Point01)
  }

  lemma SizesListed(s: nat)
    requires s in LogoSizes
    ensures s == 500 || s == 180 || s == 32
  {
  }

  /** The integer formulas agree with the double computation at every rendered size. */
  lemma FormulasAgree(s: nat)
    requires s in LogoSizes
    ensures FloatAgrees(s)
  {
    SizesListed(s);
    if s == 500 {
      Doubles500();
    } else if s == 180 {
      Doubles180();
    } else {
      Doubles32();
    }
  }

  /** The rendered sizes give (radius, stroke, font) of (165, 9, 140), (59, 3, 50) and
      (10, 2, 8), and text drops of 5, 1 and 0. */
  lemma SizingAtLogoSizes()
    ensures (HexRadius(500), StrokeWidth(500), FontSize(500)) == (165, 9, 140)
    ensures (HexRadius(180), StrokeWidth(180), FontSize(180)) == (59, 3, 50)
    ensures (HexRadius(32), StrokeWidth(32), FontSize(32)) == (10, 2, 8)
    ensures (TextDrop(500), TextDrop(180), TextDrop(32)) == (5, 1, 0)
  {
  }

  /** At size 500 the exact product of 500 and the double nearest 0.018 lies below 9, and only
      the rounding of the multiplication lifts it to 9: a model on exact reals would draw a
      stroke of 8. */
  lemma RoundingLiftsStroke()
    ensures Value(FromNat(500)) * Value(Point018) < 9.0
    ensures FloorTimes(500, Point018) == 9
  {
    FiveHundred();
    Point018Below();
    Stroke500();
  }

  lemma FiveHundred()
    ensures Value(FromNat(500)) == 500.0
  {
    Pow2Values();
    FromNatIs(500, 44);
  }

  /** Beyond the rendered sizes the integer stroke formula can differ from the script: at
      1500 the double product is 26.999999999999996, so `Math.floor` gives 26, while the
      exact product is 27. */
  lemma StrokeDiffersAt1500()
    ensures FloorTimes(1500, Point018) == 26
    ensures StrokeWidth(1500) == 27
  {
    Pow2Values();
    Pow2Add(42, 2);
    assert Pow2(2) == 4;
    assert Pow2(42) == 0x400_0000_0000;
    assert Pow2(48) == 2 * Pow2(47);
    FromNatIs(1500, 42);
    MulIs(Double(6597069766656000, -42), Point018, 52, 7599824371187711);
    FloorIs(Double(7599824371187711, -48), 26);
  }

  lemma Point018Below()
    ensures 500.0 * Value(Point018) < 9.0
  {
    Pow2Values();
  }
}

=== FILE: svg_logo.dfy ===
/** The logo as SVG, as the sharp-based brand-asset script builds it: `svgLogo(size)` is a
    template string with the size, the stroke width, the font size and the hexagon's `points`
    list spliced in. The model is the element tree that template spells out, with every
    attribute value as the template writes it. The `points` list follows the polygon grammar
    of SVG 1.1, section 9.8.1: coordinate pairs `x,y` separated by white space. */
module LogoSvg {
  import opened Canvas
  import opened LogoSizing
  import BrandLogo

  /** Decimal text of a natural number, as `${n}` gives it. */
  function NatToString(n: nat): (s: string)
    ensures |s| > 0 && forall k :: 0 <= k < |s| ==> '0' <= s[k] <= '9'
    ensures n >= 10 ==> s[0] != '0'
  {
    if n < 10 then [Digit(n)] else NatToString(n / 10) + [Digit(n % 10)]
  }

  function Digit(d: nat): char
    requires d < 10
  {
    ('0' as int + d) as char
  }

  /** The value of a string of decimal digits. */
  function ParseNat(s: string): nat
    requires forall k :: 0 <= k < |s| ==> '0' <= s[k] <= '9'
  {
    if s == [] then 0 else 10 * ParseNat(s[..|s| - 1]) + (s[|s| - 1] as int - '0' as int)
  }

  /** Reading the decimal text of `n` gives `n` back. */
  lemma {:induction false} ParseNatToString(n: nat)
    ensures ParseNat(NatToString(n)) == n
  {
    if n >= 10 {
      var s := NatToString(n);
      assert s[..|s| - 1] == NatToString(n / 10);
      ParseNatToString(n / 10);
    }
  }

  /** Elements joined by one separator each, as `Array.prototype.join` does. */
  function Join(parts: seq<string>, sep: char): string {
    if parts == [] then "" else if |parts| == 1 then parts[0] else parts[0] + [sep] + Join(parts[1..], sep)
  }

  /** The pieces of `s` between occurrences of `sep`. */
  function Split(s: string, sep: char): (parts: seq<string>)
    ensures |parts| >= 1
  {
    if s == [] then [""]
    else
      var rest := Split(s[1..], sep);
      if s[0] == sep then [""] + rest else [[s[0]] + rest[0]] + rest[1..]
  }

  /** Splitting a string that holds no separator gives the string itself. */
  lemma {:induction false} SplitNone(s: string, sep: char)
    requires sep !in s
    ensures Split(s, sep) == [s]
  {
    if s != [] {
      SplitNone(s[1..], sep);
      assert [s[0]] + s[1..] == s;
    }
  }

  /** Splitting `a + [sep] + b` when `a` holds no separator cuts at that separator. */
  lemma {:induction false} SplitAt(a: string, b: string, sep: char)
    requires sep !in a
    ensures Split(a + [sep] + b, sep) == [a] + Split(b, sep)
  {
    if a == [] {
      assert a + [sep] + b == [sep] + b;
    } else {
      SplitAt(a[1..], b, sep);
      assert (a + [sep] + b)[1..] == a[1..] + [sep] + b;
      assert [a[0]] + a[1..] == a;
    }
  }

  /** Splitting undoes joining, when no part holds the separator. */
  lemma {:induction false} SplitJoin(parts: seq<string>, sep: char)
    requires |parts| >= 1 && forall k :: 0 <= k < |parts| ==> sep !in parts[k]
    ensures Split(Join(parts, sep), sep) == parts
  {
    if |parts| == 1 {
      SplitNone(parts[0], sep);
    } else {
      SplitJoin(parts[1..], sep);
      SplitAt(parts[0], Join(parts[1..], sep), sep);
      assert parts == [parts[0]] + parts[1..];
    }
  }

  /** What `toFixed(2)` can produce: a sign, digits and a decimal point. */
  predicate NumberText(s: string) {
    |s| > 0 && forall k :: 0 <= k < |s| ==> s[k] == '-' || s[k] == '.' || '0' <= s[k] <= '9'
  }

  /** The `x,y` text of hexagon vertex `i`. */
  function PointText(size: nat, t: Trig, fixed2: real -> string, i: nat): string {
    var c := size as real / 2.0;
    var r := HexRadius(size) as real;
    fixed2(BrandLogo.VertexX(t, c, r, i)) + "," + fixed2(BrandLogo.VertexY(t, c, r, i))
  }

  /** The six vertex texts, in vertex order. */
  function PointTexts(size: nat, t: Trig, fixed2: real -> string): (ps: seq<string>)
    ensures |ps| == 6
  {
    seq(6, i requires 0 <= i < 6 => PointText(size, t, fixed2, i))
  }

  /** The `points` attribute value. */
  function Points(size: nat, t: Trig, fixed2: real -> string): string {
    Join(PointTexts(size, t, fixed2), ' ')
  }

  /** The `points` list holds exactly six pairs separated by single spaces; pair `i` is the
      two coordinates of vertex `i`, at angle `pi/3 * i - pi/6`, separated by one comma. */
  lemma PointsShape(size: nat, t: Trig, fixed2: real -> string)
    requires forall x :: NumberText(fixed2(x))
    ensures var pairs := Split(Points(size, t, fixed2), ' ');
      var c := size as real / 2.0;
      var r := HexRadius(size) as real;
      |pairs| == 6 &&
      forall i :: 0 <= i < 6 ==>
        Split(pairs[i], ',') == [fixed2(BrandLogo.VertexX(t, c, r, i)), fixed2(BrandLogo.VertexY(t, c, r, i))]
  {
    var ps := PointTexts(size, t, fixed2);
    forall k | 0 <= k < 6 ensures ' ' !in ps[k] {
      PairNoSpace(size, t, fixed2, k);
    }
    SplitJoin(ps, ' ');
    forall i | 0 <= i < 6
      ensures Split(ps[i], ',') == [fixed2(BrandLogo.VertexX(t, size as real / 2.0, HexRadius(size) as real, i)),
                                    fixed2(BrandLogo.VertexY(t, size as real / 2.0, HexRadius(size) as real, i))]
    {
      PairSplits(size, t, fixed2, i);
    }
  }

  lemma PairNoSpace(size: nat, t: Trig, fixed2: real -> string, i: nat)
    requires forall x :: NumberText(fixed2(x))
    ensures ' ' !in PointText(size, t, fixed2, i)
  {
    var c := size as real / 2.0;
    var r := HexRadius(size) as real;
    var a := fixed2(BrandLogo.VertexX(t, c, r, i));
    var b := fixed2(BrandLogo.VertexY(t, c, r, i));
    assert NumberText(a) && NumberText(b);
    NoCharIn(a, ' ');
    NoCharIn(b, ' ');
  }

  lemma PairSplits(size: nat, t: Trig, fixed2: real -> string, i: nat)
    requires forall x :: NumberText(fixed2(x))
    ensures var c := size as real / 2.0; var r := HexRadius(size) as real;
      Split(PointText(size, t, fixed2, i), ',') ==
        [fixed2(BrandLogo.VertexX(t, c, r, i)), fixed2(BrandLogo.VertexY(t, c, r, i))]
  {
    var c := size as real / 2.0;
    var r := HexRadius(size) as real;
    var a := fixed2(BrandLogo.VertexX(t, c, r, i));
    var b := fixed2(BrandLogo.VertexY(t, c, r, i));
    assert NumberText(a) && NumberText(b);
    NoCharIn(a, ',');
    NoCharIn(b, ',');
    SplitAt(a, b, ',');
    SplitNone(b, ',');
  }

  lemma NoCharIn(s: string, ch: char)
    requires NumberText(s) && ch != '-' && ch != '.' && !('0' <= ch <= '9')
    ensures ch !in s
  {
    assert forall k :: 0 <= k < |s| ==> s[k] != ch;
  }

  datatype Attr = Attr(name: string, value: string)

  /** An element: empty, holding text, or holding child elements. */
  datatype Element = Element(name: string, attrs: seq<Attr>, content: Content)

  datatype Content = Empty | Text(text: string) | Children(kids: seq<Element>)

  /** `svgLogo(size)`: the document's root element. */
  function SvgLogo(size: nat, t: Trig, fixed2: real -> string): Element {
    var n := NatToString(size);
    Element("svg",
      [Attr("width", n), Attr("height", n), Attr("viewBox", "0 0 " + n + " " + n),
       Attr("xmlns", "http://www.w3.org/2000/svg")],
      Children([
        Element("rect", [Attr("width", "100%"), Attr("height", "100%"), Attr("fill", BrandLogo.Cream)], Empty),
        Element("polygon",
          [Attr("points", Points(size, t, fixed2)), Attr("fill", BrandLogo.Brick),
           Attr("stroke", BrandLogo.Orange), Attr("stroke-width", NatToString(StrokeWidth(size)))], Empty),
        Element("g",
          [Attr("font-family", BrandLogo.LogoFamily), Attr("font-weight", "700"),
           Attr("font-size", NatToString(FontSize(size))), Attr("fill", BrandLogo.Cream),
           Attr("text-anchor", "middle"), Attr("dominant-baseline", "middle")],
          Children([Element("text", [Attr("x", "50%"), Attr("y", "51%")], Text("VS"))]))]))
  }

  /** The root is an `svg` element whose width, height and `viewBox` use the same size, and
      whose children are, in order, the full-size cream `rect`, the hexagon `polygon` (brick
      fill, orange stroke at the stroke width) and the text group. */
  lemma TreeShape(size: nat, t: Trig, fixed2: real -> string)
    ensures var root := SvgLogo(size, t, fixed2);
      var n := NatToString(size);
      root.name == "svg" && root.attrs[..3] == [Attr("width", n), Attr("height", n), Attr("viewBox", "0 0 " + n + " " + n)] &&
      root.content.Children? && |root.content.kids| == 3 &&
      root.content.kids[0] == Element("rect", [Attr("width", "100%"), Attr("height", "100%"), Attr("fill", "#F5E9E4")], Empty) &&
      root.content.kids[1].name == "polygon" &&
      root.content.kids[1].attrs[1..] == [Attr("fill", "#D4451D"), Attr("stroke", "#FFA046"), Attr("stroke-width", NatToString(StrokeWidth(size)))] &&
      root.content.kids[2].name == "g"
  {
  }

  /** The text group sets the bold logo font at the font size, cream fill and middle
      anchoring, and holds one `text` element reading "VS" at 50% across and 51% down. */
  lemma TextGroup(size: nat, t: Trig, fixed2: real -> string)
    ensures var g := SvgLogo(size, t, fixed2).content.kids[2];
      Attr("font-weight", "700") in g.attrs && Attr("font-size", NatToString(FontSize(size))) in g.attrs &&
      Attr("fill", "#F5E9E4") in g.attrs && Attr("text-anchor", "middle") in g.attrs &&
      g.content == Children([Element("text", [Attr("x", "50%"), Attr("y", "51%")], Text("VS"))])
  {
  }

  /** The numbers in the document read back as the size, the stroke width and the font size
      of the sizing formulas; the canvas script uses the same three formulas. */
  lemma SvgNumbers(size: nat, t: Trig, fixed2: real -> string)
    ensures var root := SvgLogo(size, t, fixed2);
      ParseNat(root.attrs[0].value) == size &&
      ParseNat(root.content.kids[1].attrs[3].value) == StrokeWidth(size) &&
      ParseNat(root.content.kids[2].attrs[2].value) == FontSize(size)
  {
    ParseNatToString(size);
    ParseNatToString(StrokeWidth(size));
    ParseNatToString(FontSize(size));
  }
}
